=== FILE: README.md ===
# Support-session router of bot.py, in Dafny

bot.py is a Telegram support bot. It has one operator (`ADMIN_ID`) and any number of users.

- A user presses *Contact Support* and enters support mode. A row is opened in the `support_sessions` table, and an entry is added to the in-memory `active_chats` map.
- Each text the user then sends is forwarded to the operator. The ids of the forwarded messages are recorded on the entry.
- The operator answers with inline buttons:
  - *Reply* sets `admin_replying_to`, so that the next operator text is relayed to that user;
  - *Close & Clean* closes the session and deletes the forwards;
  - *Block* and *Unblock* flip the `is_active` flag of the user's row;
  - *Broadcast* is meant to arm a broadcast to a scope.
- When polling is interrupted or raises, `cleanup_database` closes every session still active.

The model is a state machine with pure functions only:

- `Router.State` holds the operator id, the two tables, `active_chats` and the two operator modes.
- `Router.Event` is a command, a text, a button press (its callback string and the message carrying it), or the exit.
- `Router.Step` returns the next state together with the platform calls made (`Outbound.Action`).

The platform's answers are a parameter, `Router.Oracle`:

- which chats a send to fails for;
- which message ids a delete fails for;
- which id a message forwarded to the operator gets;
- whether the acknowledgement of a pressed button (`query.answer()`) fails.

A failure the source does not catch aborts the handler. State changed before the exception stays changed, as it does in the source.

The project has six modules:

| module | file | contents |
|---|---|---|
| `PyText` | pytext.dfy | the Python string operations the router uses to read ids back out of callback data: `startswith`, `split("_")`, `str(int)` and `int(str)`. `int()` is modelled with white space, a sign and underscores. |
| `Callbacks` | callbacks.dfy | the first-match table of callback patterns (including the "`$` also matches before a final newline" rule of Python's `re`), the branch each handler takes, and the buttons the bot renders |
| `Store` | store.dfy | the `users` and `support_sessions` tables and the SQL statements the router runs on them |
| `Outbound` | outbound.dfy | the platform calls, and the three loops of independent attempts: the broadcast fan-out, the delete loop of close & clean, and the sweep of clean_chat |
| `Router` | router.dfy | one function per handler, and `Step` |
| `RouterProperties` | properties.dfy | the entry invariant, and properties that span several updates |

Behaviour of the code worth knowing:

- **Operator text with no mode.** When the operator sends text with no reply target and no broadcast pending, the bot answers with the admin panel (bot.py:727-735).
- **Empty broadcast list.** A broadcast with an empty target list sends a "no users found" reply and, when that reply goes through, the mode is cleared (bot.py:782-788).
- **Several sessions per user.** A second *Contact Support* press opens a second active session row, and the first one stays active (`RouterProperties.HelpTwiceOpensTwo`).
- **Block leaves the session open.** Blocking a user in support drops the entry but leaves the session row active (`RouterProperties.BlockLeavesSessionOpen`). The user's next text sets `is_active` back to 1 (`RouterProperties.BlockUndoneByText`).
- **Broadcasts never run.** The broadcast scope buttons never reach `admin_broadcast_callback`. The first pattern's unanchored `broadcast` alternative takes them, and `admin_panel_callback` has no branch for them (`Callbacks.BroadcastHandlerUnreachable`). So broadcast mode is never switched on (`RouterProperties.BroadcastNeverArmed`). `Router.OnBroadcast` still models `handle_broadcast` for a state where the mode is set.
- **Unguarded acknowledgements.** `admin_broadcast_callback`, `block_user_handler` and `user_callback_handler` call `query.answer()` outside any `try`, before their first effect (bot.py:684, 1073, 849; `start_support_chat` answers again at bot.py:350). When that call raises, the press does nothing (`RouterProperties.HelpAnswerFails`).

## Model

| member | source | states |
|---|---|---|
| PyText.Split | bot.py:594 | `s.split("_")` yields at least one field; no field contains the separator; joining the fields with the separator gives back `s`, so empty fields are kept |
| PyText.SplitJoin | bot.py:609 | splitting a joined string recovers exactly the parts it was built from, as long as no part contains the separator; this is why the id of `close_clean_<id>` is field 2 |
| PyText.Field | bot.py:594 | `data.split("_")[k]`, when it exists, contains no underscore |
| PyText.NatToString | bot.py:286 | `str(n)` of a natural number is a non-empty run of ASCII digits |
| PyText.NatRoundTrip | bot.py:286 | the digits `str(n)` prints read back, left to right, to `n` |
| PyText.IntToString | bot.py:286-291 | `str(user_id)` as the keyboards embed it: non-empty, a leading minus sign exactly for a negative id, digits after it |
| PyText.ParseIntRoundTrip | bot.py:594 | `int(str(n)) == n` for every Python int, negative ones included; ids survive the trip through callback data |
| PyText.SignedRoundTrip | bot.py:1076 | `int()` of a minus sign followed by digits is the negated digit value |
| PyText.PlainDigits | bot.py:1111 | `int()` of a run of ASCII digits is its decimal value |
| PyText.ParseInt | bot.py:594 | `int(data.split("_")[1])` gives a value exactly when the text, once stripped of surrounding white space, is an optional sign followed by digit groups; anything else (`12x`, `1__0`, `5_`, `--1`) is the ValueError; text with no digit never parses |
| PyText.ParseSigned | bot.py:594 | `int()` of stripped text gives a value exactly for an optional sign followed by digit groups; no digit, no value |
| PyText.IntLiteral | bot.py:594 | (definition) the stripped text `int()` accepts: an optional `-` or `+`, then digit groups |
| PyText.TrailingNonDigit | bot.py:594 | text ending in anything but a digit (`12x`, `5_`) never parses |
| PyText.DigitSurvivesStrip | bot.py:594 | a digit found after stripping was a digit of the original text |
| PyText.StrippedParse | bot.py:594 | on text without surrounding white space, `int()` is the signed digit-group parse |
| PyText.StripOfDigits | bot.py:594 | stripping leaves text that neither starts nor ends with white space unchanged |
| PyText.PlusDigits | bot.py:594 | `int()` of a plus sign followed by digits is the digits' value |
| PyText.PaddedParse | bot.py:594 | white space on either side of the number does not change what `int()` reads |
| PyText.StripPadded | bot.py:594 | stripping white-space padding gives back exactly the padded text |
| PyText.GroupedDigits | bot.py:594 | an underscore between two digit runs is accepted and ignored, as in `int("1_0") == 10` |
| PyText.DigitGroups | bot.py:594 | (definition) the digit-group syntax `int()` accepts: digits, with single underscores only between two digits |
| PyText.StripLeft | bot.py:594 | `int()` ignores leading white space: the result is a suffix of the input, everything cut off is white space, and it does not itself start with white space |
| PyText.StripRight | bot.py:594 | trailing white space is ignored too: the result is a prefix of the input, everything cut off is white space, and it does not end with white space |
| PyText.DropUnderscores | bot.py:594 | removing the digit-group underscores that `int()` accepts leaves only digits, and every digit of the input is kept, as often as it occurred |
| PyText.DropUnderscoresAppend | bot.py:594 | (helper) removing underscores works piece by piece, so the digits keep their order |
| PyText.DropUnderscoresOfDigits | bot.py:594 | a plain run of digits has no underscore to remove |
| PyText.SpacesFrom | bot.py:594 | (helper) the first position at or after `k` that is not white space, everything skipped being white space |
| PyText.SpacesBefore | bot.py:594 | (helper) the position after the last non-space character before `k`, everything skipped being white space |
| Callbacks.Decode | bot.py:1163-1170 | a press is dropped exactly when no registered pattern matches; a broadcast scope can only come from `admin_broadcast_callback`; help/end support only from `user_callback_handler` |
| Callbacks.Dispatch | bot.py:1163-1170 | a press goes to the earliest registered handler whose pattern matches it: that handler's pattern matches, no earlier one does, and the press is dropped only when no pattern matches at all |
| Callbacks.Anchored | bot.py:1165 | (definition) an alternative under `$` matches the word itself or the word followed by one final newline, as Python's `re` does |
| Callbacks.PanelPattern | bot.py:1163 | (definition) the unanchored `admin_panel_callback` regex: any alternative as a prefix |
| Callbacks.ChatPattern | bot.py:1164 | (definition) the `admin_chat_callback` regex, prefixes `reply_` and `close_clean_` |
| Callbacks.BroadcastPattern | bot.py:1165 | (definition) the anchored `admin_broadcast_callback` regex |
| Callbacks.ManagementPattern | bot.py:1166 | (definition) the anchored `user_management_callback` regex |
| Callbacks.BlockPattern | bot.py:1167 | (definition) the `block_user_handler` regex, prefixes `block_` and `unblock_` |
| Callbacks.UserPattern | bot.py:1170 | (definition) the anchored `user_callback_handler` regex |
| Callbacks.AdminOnly | bot.py:449 | (definition) the callbacks whose handler returns at once for anyone but the operator, as the guards at bot.py:449, 582, 680, 938 and 1069 do |
| Callbacks.IdField | bot.py:594 | (definition) `int(data.split("_")[k])`, with `None` for either exception; used at bot.py:559, 594, 609, 1076 and 1111 |
| Callbacks.PanelBranch | bot.py:459-559 | (definition) the if-chain of `admin_panel_callback`: the fixed views, `clean_chat`, and `view_chat_<id>` with its id parse |
| Callbacks.ChatBranch | bot.py:593-609 | (definition) the two branches of `admin_chat_callback` and the field each reads its id from |
| Callbacks.BlockBranch | bot.py:1075-1111 | (definition) the `block_` branch first, then `unblock_`, each reading field 1 |
| Callbacks.DecodeRender | bot.py:245-317 | every button the bot renders (`Callbacks.Render`, the callback data of each keyboard, plus the `unblock_<id>` button at bot.py:1094) reaches the branch its label promises, with the very user id it was made from; the exception is the two broadcast scope buttons, which land in `admin_panel_callback` with no branch |
| Callbacks.BroadcastHandlerUnreachable | bot.py:1163-1165 | no callback string at all reaches `admin_broadcast_callback` or decodes to a scope choice, because the earlier unanchored `broadcast` alternative takes every string its pattern accepts |
| Callbacks.DecodeReply | bot.py:593-594 | `reply_<id>` decodes to a reply to that id |
| Callbacks.DecodeCloseClean | bot.py:608-609 | `close_clean_<id>` decodes to close & clean of that id, although the id sits in the third field |
| Callbacks.DecodeBlock | bot.py:1075-1076 | `block_<id>` decodes to a block of that id |
| Callbacks.DecodeUnblock | bot.py:1094-1111 | the `unblock_<id>` button of the block confirmation decodes to an unblock of that id, not a block, although `unblock_` contains `block_` |
| Callbacks.DecodeViewChat | bot.py:558-559 | `view_chat_<id>` decodes to a read-only view |
| Callbacks.DecodeScope | bot.py:310-317 | the `broadcast_all` and `broadcast_active` buttons decode to no branch |
| Callbacks.DecodeUserData | bot.py:1170 | `help_support` and `end_support`, matched by the anchored pattern of `user_callback_handler`, decode to its support branches (bot.py:851-856) |
| Callbacks.DecodePanelData | bot.py:1163 | the fixed panel strings decode to a view, or to the clean-chat sweep for `clean_chat` |
| Callbacks.DecodeListData | bot.py:1166 | `user_management` and `support_history` decode to a view |
| Callbacks.DecodeSettingsData | bot.py:1166 | `bot_settings` decodes to a view |
| Callbacks.NumberField | bot.py:286-291 | `prefix_` + `str(n)` splits into the prefix's fields followed by `str(n)`, which parses back to `n` |
| Callbacks.NoSeparatorInNumber | bot.py:286 | (helper) `str(n)` contains no underscore, so it is a single field |
| Callbacks.IdAfterOne | bot.py:594 | the id of `word_<n>` is field 1 and parses to `n` |
| Callbacks.IdAfterTwo | bot.py:609 | the id of `word_word_<n>` is field 2 and parses to `n` |
| Store.Touch | bot.py:137-147 | after a user is seen, the user has an active row; its message counter went up by one (to one for a new user); no other row changed; no other key appeared |
| Store.SetActive | bot.py:1079-1083 | only an existing row changes, and only its `is_active` flag; a missing user changes nothing |
| Store.ActiveUserIds | bot.py:235-242 | the ids selected are exactly the users whose row is active |
| Store.Ascending | bot.py:235-242 | the rows come back as a listing of the id set: every id once, nothing else, in strictly increasing (rowid) order |
| Store.LeastThenRest | bot.py:235-242 | (helper) the least id followed by an ascending listing of the rest is an ascending listing of all |
| Store.HasLeast | bot.py:235-242 | (helper) every non-empty id set has a least element |
| Store.MaxId | bot.py:116 | no session id in the table exceeds the maximum, and it is never negative |
| Store.OpenSession | bot.py:152-165 | opening appends exactly one active, not-yet-ended row with count 0; its id is positive and differs from every id already in the table |
| Store.OpenKeepsIdsUnique | bot.py:116 | inserting a session keeps session ids unique |
| Store.CloseSession | bot.py:167-179 | every row with the id is closed with the closer and the count, even one that was already closed; every other row is unchanged; no row is added or removed |
| Store.CloseAllActive | bot.py:1176-1187 | every active row is closed by the system and keeps its count; closed rows are unchanged |
| Store.ActiveCountAppend | bot.py:152-165 | (helper) appending a row adds one to a user's active count exactly when it is an active row of that user |
| Store.OpenAddsOneActive | bot.py:152-165 | opening a session adds exactly one active row for its user; no user loses one, whatever was already open |
| Store.NoneActiveAfterShutdown | bot.py:1183-1187 | after the exit hook no user has an active session |
| Store.ShutdownIdempotent | bot.py:1183-1187 | running the exit hook twice is the same as running it once |
| Outbound.Recipients | bot.py:803-805 | the broadcast recipients are exactly the targets other than the operator, and there are no more of them than targets |
| Outbound.Fanout | bot.py:803-818 | one send per recipient, in target order, succeeding exactly when the platform delivers; sent plus failed is the number of recipients |
| Outbound.FanoutOncePerTarget | bot.py:803-818 | with distinct targets, each target other than the operator is sent the broadcast exactly once, and nobody else is sent anything |
| Outbound.RecipientsCount | bot.py:803-805 | with distinct targets, only the operator is skipped |
| Outbound.SucceededAtMost | bot.py:625-632 | (helper) no more calls succeed than were made |
| Outbound.SendsToAppend | bot.py:803-818 | (helper) the sends to a chat add up over concatenated call lists |
| Outbound.DeleteEach | bot.py:625-632 | every recorded message id gets one delete, in order; a failed delete does not stop the rest; deleted plus failed is the number of ids |
| Outbound.Sweep | bot.py:538-543 | the messages 1, 2, ... below the pressed one are deleted until the first failure or offset 49; one failure at most, and only when the sweep stopped early |
| Router.CloseRecorded | bot.py:327-331 | the entry's session row is closed with the entry's count when the entry has a session id, and nothing changes otherwise |
| Router.Leave | bot.py:856-865 | leaving support drops only the caller's entry, ends its session as above, and leaves the users table and the operator modes alone |
| Router.Targets | bot.py:772-777 | the targets have no repetition; for all-users they are exactly the active user rows, and for active-chats exactly the users with an entry |
| Router.OnStart | bot.py:319-342 | `/start` touches the caller's row, ends any support entry of the caller as the user, and sends the panel to the operator or the welcome to anyone else |
| Router.OnReport | bot.py:910-934 | `/admin` and `/stats` change nothing and send one reply to the caller, a refusal exactly when the caller is not the operator |
| Router.OnUserText | bot.py:381-444 | a user in support has the count raised and the text forwarded to the operator, as a new request only while the entry is waiting; the forward id is recorded exactly when the forward went through, and then the user is acknowledged ("sent to admin" the first time, "sent" after); a user outside support gets the menu; the row is touched either way, and no other entry or session changes |
| Router.OnOperatorText | bot.py:716-761 | a pending broadcast takes the text first; with no reply target (or target 0) the operator gets the panel and nothing changes; otherwise the text is relayed, and reply mode ends exactly when the relay went through |
| Router.OnText | bot.py:884-892 | a text never changes the session table or the operator id; an operator text leaves users and entries alone; any other sender's row is touched, the operator modes stay, and no other user's entry changes |
| Router.OnBroadcast | bot.py:763-842 | with no targets the operator is told so; otherwise a status message, then the fan-out, then the tally; the mode is cleared exactly when the operator can be reached; the tables and entries never change |
| Router.OnHelpSupport | bot.py:345-379 | contact support appends one new active row for the user, with a fresh positive id, and gives the user a waiting entry on that row; an earlier entry is replaced without closing its session |
| Router.OnEndSupport | bot.py:845-881 | end support drops the user's entry, closes its session as the user, and tells the operator |
| Router.OnReplyPress | bot.py:593-606 | the reply button sets the reply target to the pressed id, whether or not that user has an entry, and changes nothing else |
| Router.OnCloseClean | bot.py:608-666 | close & clean closes the entry's session as the operator with the entry's count, tries every recorded forward once, reports how many deletions succeeded, drops only that entry and notifies the user |
| Router.OnBlock | bot.py:1075-1107 | block clears only the target's `is_active` flag and drops only the target's entry; the session table is unchanged |
| Router.OnUnblock | bot.py:1109-1127 | unblock sets only the target's `is_active` flag and changes nothing else |
| Router.OnPickScope | bot.py:678-714 | picking a scope arms the broadcast for it and shows the number of targets; nothing else changes |
| Router.OnCleanChat | bot.py:532-556 | clean_chat changes no state; the deletes run downward from the pressed message and stop at the first failure or after 49; the report counts exactly the deletes that succeeded |
| Router.OnPress | bot.py:447-450 | operator buttons pressed by anyone else do nothing; a press with no branch, no handler or an id that does not parse does nothing; a press to a handler whose unguarded `query.answer()` raises does nothing; a press by a non-operator never changes the operator modes |
| Router.AnswersUnguarded | bot.py:849 | (definition) the callbacks whose handler calls `query.answer()` outside a `try` before any effect: bot.py:684, 849 (and 350 for help) and 1073 |
| Router.Lookup | bot.py:613 | (definition) `active_chats.get(user_id, {})`: an absent user reads as no session, no forwards and a count of 0 (also bot.py:560) |
| Router.OnShutdown | bot.py:1176-1193 | `cleanup_database`, run when polling is interrupted or raises (bot.py:1224-1229): every session row ends up closed; exactly the active ones are marked ended by the system; the rest of the state is unchanged |
| Router.Step | bot.py:1157-1173 | the operator id never changes, and an update from anyone but the operator never changes the operator modes |
| RouterProperties.Initial | bot.py:96-134 | a process started on an existing database (unique positive AUTOINCREMENT ids, as earlier runs left them), with no entries and no mode, satisfies the entry invariant |
| RouterProperties.DistinctOwners | bot.py:116 | (helper) with unique ids, rows of different users never share an id |
| RouterProperties.EndingKeepsInv | bot.py:327-332 | dropping an entry and closing its session keeps every other entry pointing at an active row of its own user |
| RouterProperties.TextKeepsInv | bot.py:884-899 | a text keeps the invariant: the sender's entry stays on its session, and stays coherent (recorded forwards never outnumber counted texts) |
| RouterProperties.HelpKeepsInv | bot.py:357-368 | contact support keeps the invariant: the new entry points at the new row, and other entries' rows are untouched |
| RouterProperties.PressKeepsInv | bot.py:1163-1170 | every decoded press keeps the invariant |
| RouterProperties.StepKeepsInv | bot.py:1157-1173 | every update except the exit hook keeps the invariant: session ids are unique and positive, and each entry is coherent and points at an active session row of its own user |
| RouterProperties.ShutdownClosesAll | bot.py:1176-1187 | after the exit hook no user has an active session |
| RouterProperties.BroadcastNeverArmed | bot.py:1163-1165 | from a state without broadcast mode, no update of any kind switches it on |
| RouterProperties.PressNeverArms | bot.py:678-714 | only a scope choice can switch broadcast mode on |
| RouterProperties.BroadcastReachesEachOnce | bot.py:797-818 | when a broadcast runs, each target other than the operator is sent the text exactly once; the operator gets only the status message; the tally counts every target but the operator |
| RouterProperties.OperatorOnly | bot.py:580-583 | any press whose handler is operator-only, made by anyone else, leaves the state unchanged and makes no call |
| RouterProperties.PressDecoded | bot.py:1163-1170 | (helper) a press runs exactly the branch its callback string decodes to |
| RouterProperties.ReplyReachesPressedUser | bot.py:716-741 | pressing Reply for a user and then typing relays the text to that user, for a nonzero id, whatever entries exist, when no broadcast is pending |
| RouterProperties.HelpTwiceOpensTwo | bot.py:357-368 | pressing contact support twice leaves the user with two more active sessions than before |
| RouterProperties.HelpThenEnd | bot.py:845-865 | contact support followed by end support leaves one new row, closed by the user with count 0; earlier rows are unchanged, and the entries are as before minus the user's |
| RouterProperties.HelpAnswerFails | bot.py:346-357 | a contact-support press whose acknowledgement raises opens no session and changes nothing, since the insert comes after it |
| RouterProperties.HelpStep | bot.py:849-852 | (helper) callback data that decodes to contact support runs `start_support_chat` once the press is acknowledged |
| RouterProperties.EndStep | bot.py:849-856 | (helper) callback data that decodes to end support runs the end-support branch once the press is acknowledged |
| RouterProperties.HelpThenEndRows | bot.py:357-368 | opening and then ending support appends exactly one row, closed by the user with count 0 |
| RouterProperties.HelpThenEndChats | bot.py:865 | opening and then ending support leaves the entries as before, minus the user's |
| RouterProperties.NewRequestOnlyFirst | bot.py:396-438 | only the first text of an entry is framed as a new request; two texts raise the count by two |
| RouterProperties.CloseCleanEndsOwnSession | bot.py:608-637 | close & clean (any data decoding to it, the button's included) on a user in support drops the entry, lowers that user's number of active sessions, keeps the number of rows, and closes the entry's own row as the operator with the entry's count |
| RouterProperties.CloseCleanOwnRow | bot.py:608-637 | the close & clean handler itself, for a user in support, closes that user's own row as the operator with the entry's count and drops the entry |
| RouterProperties.CloseCleanDeletesAtMostRecorded | bot.py:624-645 | the close summary never reports more deletions than forwards were recorded |
| RouterProperties.ClosingLowersCount | bot.py:167-179 | closing an active row of a user lowers that user's active count |
| RouterProperties.ClosingNeverRaises | bot.py:167-179 | closing rows never adds an active row |
| RouterProperties.BlockLeavesSessionOpen | bot.py:1085-1087 | blocking a user in support drops the entry but leaves at least one active session for them |
| RouterProperties.ActiveRowCounts | bot.py:152-165 | an active `support_sessions` row of a user (the `status` column, bot.py:122) makes that user's active count positive |
| RouterProperties.UnblockUndoesBlock | bot.py:1075-1118 | unblocking right after blocking restores the users table, when the user's row (if any) was active |
| RouterProperties.BlockUndoneByText | bot.py:142-147 | a block does not stick: the blocked user's next text marks the row active again, and the next all-users broadcast includes them |

## Left out

- Message wording, Markdown, keyboards other than their callback data, user names, full names and timestamps are not modelled. A notice is identified by its purpose.
- Edits are taken to succeed, and so are the `query.answer()` calls inside a `try` (bot.py:455, 587, 943), whose errors are swallowed. The `except` fallback of an edit that sends a fresh message instead is not modelled.
- The `error_handler`, the health-check HTTP server, the keep-alive loop, the asyncio and thread start-up, the environment configuration and `init_database` are not modelled. They are I/O and plumbing with no bearing on the router's state.
- The read-only panel views are modelled only as a single view with no state change:
  - `view_active_chats`, `bot_stats`, `view_chat_<id>`;
  - `user_management`, `support_history`, `bot_settings`;
  - `/admin`, `/stats`.
  `get_bot_statistics` and the other SELECTs behind them are not modelled.
- PyText.ParseInt: accepts only ASCII digits. Python's `int()` also accepts other Unicode decimal digits. The router only ever parses strings it rendered itself.
- Router.Targets: lists the active-chats scope in ascending id order, not in the insertion order of the Python dict. Which users are targeted, and how often, is the same either way.
- Store.Ascending: the SELECT of `get_all_user_ids` (bot.py:239) has no ORDER BY, so SQLite promises no order; the model lists the all-users targets in ascending id order. Which users are targeted, and how often, does not depend on it.
- Router.OnCleanChat: deletes in the operator's chat, while bot.py:535 uses the chat the button was pressed in. The two are the same for the operator's private chat with the bot; a press from a group chat is not modelled.
- Router.OnOperatorText: the platform oracle gives each chat one send outcome per event, so when the confirmation to the operator raises (bot.py:750-754), the failure report of the `except` branch (bot.py:756-761) is taken to raise as well. A transient error that lets the report through, telling the operator the reply failed although it was delivered and reply mode was cleared, is not modelled.
- Router.OnShutdown: a normal return from `run_polling`, or a process that is killed, skips `cleanup_database` and leaves session rows active. The `Shutdown` event stands for the two `except` branches only.
- The SQLite engine is not modelled: its locking, durability, and failure of a statement. Every statement is taken to succeed.
- Concurrency is not modelled. The updates are handled one after another, as a single-threaded polling loop does.
- `context.user_data` is modelled only for the operator's `broadcast_type`, the one key the router reads.


=== FILE: callbacks.dfy ===
/** How a button press reaches its handler: the first-match table of callback
    patterns registered in bot.py, and the branch each handler then takes,
    decoded into a closed set of typed callbacks. */
module Callbacks {
  import opened PyText

  /** Target of a broadcast: every user whose row is active, or every user
      with an open support entry. */
  datatype Scope = All | ActiveChats

  /** The callback handlers, in registration order. */
  datatype Handler =
    | AdminPanelHandler       // admin_panel_callback
    | AdminChatHandler        // admin_chat_callback
    | AdminBroadcastHandler   // admin_broadcast_callback
    | ManagementHandler       // user_management_callback
    | BlockHandler            // block_user_handler
    | UserHandler             // user_callback_handler
    | NoHandler               // no pattern matches; the press is dropped

  /** What a press means once its handler has picked a branch. */
  datatype Callback =
    | Report                  // a read-only panel view
    | CleanChat               // the `clean_chat` branch
    | Reply(user: int)
    | CloseClean(user: int)
    | PickScope(scope: Scope)
    | Block(user: int)
    | Unblock(user: int)
    | HelpSupport
    | EndSupport
    | BadId                   // `int(...)` of the id field raised
    | NoBranch                // a handler matched but none of its branches did
    | Unrouted                // no handler matched
  {
    /** Handlers other than user_callback_handler return at once unless the
        press comes from the operator. */
    predicate AdminOnly() {
      !(HelpSupport? || EndSupport? || NoBranch? || Unrouted?)
    }
  }

  /** Python's `$` matches at the end of the string and also just before a
      final newline, so an anchored alternative `w` accepts `w` and `w + "\n"`. */
  predicate Anchored(data: string, w: string) {
    data == w || data == w + "\n"
  }

  /** `^(admin_panel|view_active_chats|bot_stats|broadcast|clean_chat|view_chat_)`:
      no `$`, so each alternative only has to be a prefix. */
  predicate PanelPattern(data: string) {
    || StartsWith(data, "admin_panel") || StartsWith(data, "view_active_chats")
    || StartsWith(data, "bot_stats") || StartsWith(data, "broadcast")
    || StartsWith(data, "clean_chat") || StartsWith(data, "view_chat_")
  }

  /** `^(reply_|close_clean_)` */
  predicate ChatPattern(data: string) {
    StartsWith(data, "reply_") || StartsWith(data, "close_clean_")
  }

  /** `^(broadcast_all|broadcast_active)$` */
  predicate BroadcastPattern(data: string) {
    Anchored(data, "broadcast_all") || Anchored(data, "broadcast_active")
  }

  /** `^(user_management|support_history|bot_settings)$` */
  predicate ManagementPattern(data: string) {
    Anchored(data, "user_management") || Anchored(data, "support_history")
    || Anchored(data, "bot_settings")
  }

  /** `^(block_|unblock_)` */
  predicate BlockPattern(data: string) {
    StartsWith(data, "block_") || StartsWith(data, "unblock_")
  }

  /** `^(help_support|end_support)$` */
  predicate UserPattern(data: string) {
    Anchored(data, "help_support") || Anchored(data, "end_support")
  }

  /** Whether `h`'s registered pattern accepts `data`; `NoHandler` has none. */
  predicate Matches(h: Handler, data: string) {
    match h
    case AdminPanelHandler => PanelPattern(data)
    case AdminChatHandler => ChatPattern(data)
    case AdminBroadcastHandler => BroadcastPattern(data)
    case ManagementHandler => ManagementPattern(data)
    case BlockHandler => BlockPattern(data)
    case UserHandler => UserPattern(data)
    case NoHandler => false
  }

  /** A handler's position in the registration order. */
  function Rank(h: Handler): nat {
    match h
    case AdminPanelHandler => 0
    case AdminChatHandler => 1
    case AdminBroadcastHandler => 2
    case ManagementHandler => 3
    case BlockHandler => 4
    case UserHandler => 5
    case NoHandler => 6
  }

  /** The handler table: the press goes to the earliest registered handler
      whose pattern matches, and is dropped when none does. */
  function Dispatch(data: string): (h: Handler)
    ensures h != NoHandler ==> Matches(h, data)
    ensures forall g :: Rank(g) < Rank(h) ==> !Matches(g, data)
  {
    if PanelPattern(data) then AdminPanelHandler
    else if ChatPattern(data) then AdminChatHandler
    else if BroadcastPattern(data) then AdminBroadcastHandler
    else if ManagementPattern(data) then ManagementHandler
    else if BlockPattern(data) then BlockHandler
    else if UserPattern(data) then UserHandler
    else NoHandler
  }

  /** `int(data.split("_")[k])`; `None` when either step raises. */
  function IdField(data: string, k: nat): Option<int> {
    match Field(data, '_', k)
    case None => None
    case Some(f) => ParseInt(f)
  }

  /** The branch admin_panel_callback takes. */
  function PanelBranch(data: string): Callback {
    if data in {"admin_panel", "view_active_chats", "bot_stats", "broadcast"} then Report
    else if data == "clean_chat" then CleanChat
    else if StartsWith(data, "view_chat_") then (if IdField(data, 2).Some? then Report else BadId)
    else NoBranch
  }

  /** The branch admin_chat_callback takes. */
  function ChatBranch(data: string): Callback {
    if StartsWith(data, "reply_") then
      match IdField(data, 1)
      case Some(u) => Reply(u)
      case None => BadId
    else if StartsWith(data, "close_clean_") then
      match IdField(data, 2)
      case Some(u) => CloseClean(u)
      case None => BadId
    else NoBranch
  }

  /** The branch block_user_handler takes. */
  function BlockBranch(data: string): Callback {
    if StartsWith(data, "block_") then
      match IdField(data, 1)
      case Some(u) => Block(u)
      case None => BadId
    else if StartsWith(data, "unblock_") then
      match IdField(data, 1)
      case Some(u) => Unblock(u)
      case None => BadId
    else NoBranch
  }

  /** Full decoding of a callback string: handler first, then its branch. */
  function Decode(data: string): (cb: Callback)
    ensures cb.Unrouted? <==> Dispatch(data).NoHandler?
    ensures cb.PickScope? ==> Dispatch(data).AdminBroadcastHandler?
    ensures cb.HelpSupport? || cb.EndSupport? ==> Dispatch(data).UserHandler?
  {
    match Dispatch(data)
    case AdminPanelHandler => PanelBranch(data)
    case AdminChatHandler => ChatBranch(data)
    case AdminBroadcastHandler =>
      if data == "broadcast_all" then PickScope(All)
      else if data == "broadcast_active" then PickScope(ActiveChats)
      else NoBranch
    case ManagementHandler =>
      if data in {"user_management", "support_history", "bot_settings"} then Report else NoBranch
    case BlockHandler => BlockBranch(data)
    case UserHandler =>
      if data == "help_support" then HelpSupport
      else if data == "end_support" then EndSupport
      else NoBranch
    case NoHandler => Unrouted
  }

  // ---------------------------------------------------------------------------
  // The buttons the bot itself renders
  // ---------------------------------------------------------------------------

  /** Every inline button with callback data that the bot puts on screen. */
  datatype Button =
    | ContactSupport | EndSupportChat
    | ReplyTo(user: int) | CloseAndClean(user: int) | BlockUser(user: int)
    | UnblockUser(user: int) | ViewChat(user: int)
    | BackToPanel | ActiveChatsView | Statistics | BroadcastMenu | UserManagement
    | SupportHistory | BotSettings | CleanChatHistory
    | SendToAll | SendToActive

  /** The callback data each button carries. */
  function Render(b: Button): string {
    match b
    case ContactSupport => "help_support"
    case EndSupportChat => "end_support"
    case ReplyTo(u) => "reply_" + IntToString(u)
    case CloseAndClean(u) => "close_clean_" + IntToString(u)
    case BlockUser(u) => "block_" + IntToString(u)
    case UnblockUser(u) => "unblock_" + IntToString(u)
    case ViewChat(u) => "view_chat_" + IntToString(u)
    case BackToPanel => "admin_panel"
    case ActiveChatsView => "view_active_chats"
    case Statistics => "bot_stats"
    case BroadcastMenu => "broadcast"
    case UserManagement => "user_management"
    case SupportHistory => "support_history"
    case BotSettings => "bot_settings"
    case CleanChatHistory => "clean_chat"
    case SendToAll => "broadcast_all"
    case SendToActive => "broadcast_active"
  }

  /** What the button is for: the handler branch its label promises. */
  function Intended(b: Button): Callback {
    match b
    case ContactSupport => HelpSupport
    case EndSupportChat => EndSupport
    case ReplyTo(u) => Reply(u)
    case CloseAndClean(u) => CloseClean(u)
    case BlockUser(u) => Block(u)
    case UnblockUser(u) => Unblock(u)
    case CleanChatHistory => CleanChat
    case SendToAll => PickScope(All)
    case SendToActive => PickScope(ActiveChats)
    case _ => Report
  }

  lemma NoSeparatorInNumber(n: int)
    ensures '_' !in IntToString(n)
  {
    var d := NatToString(if n < 0 then -n else n);
    assert forall i :: 0 <= i < |d| ==> d[i] != '_';
    if n < 0 {
      assert IntToString(n) == "-" + d;
    }
  }

  /** `prefix + str(n)` splits into the prefix's fields followed by `str(n)`. */
  lemma {:induction false} NumberField(fields: seq<string>, n: int)
    requires |fields| >= 1
    requires forall i :: 0 <= i < |fields| ==> '_' !in fields[i]
    ensures Field(Join(fields, '_') + "_" + IntToString(n), '_', |fields|) == Some(IntToString(n))
    ensures ParseInt(IntToString(n)) == Some(n)
  {
    var parts := fields + [IntToString(n)];
    NoSeparatorInNumber(n);
    JoinSnoc(fields, IntToString(n), '_');
    SplitJoin(parts, '_');
    ParseIntRoundTrip(n);
  }

  lemma {:induction false} JoinSnoc(parts: seq<string>, last: string, sep: char)
    requires |parts| >= 1
    ensures Join(parts + [last], sep) == Join(parts, sep) + [sep] + last
    decreases |parts|
  {
    if |parts| == 1 {
      assert (parts + [last])[1..] == [last];
    } else {
      JoinSnoc(parts[1..], last, sep);
      assert (parts + [last])[1..] == parts[1..] + [last];
    }
  }

  /** Every button with a user id in its data decodes to that same id, and
      every button reaches the branch it is for, except the two broadcast
      scope buttons: the unanchored `broadcast` alternative of the first
      pattern swallows them, and admin_panel_callback has no branch for them. */
  lemma {:induction false} DecodeRender(b: Button)
    ensures !(b.SendToAll? || b.SendToActive?) ==> Decode(Render(b)) == Intended(b)
    ensures b.SendToAll? || b.SendToActive? ==> Decode(Render(b)) == NoBranch
  {
    if b.ReplyTo? || b.CloseAndClean? || b.BlockUser? || b.UnblockUser? || b.ViewChat? {
      DecodeIdButton(b);
    } else if b.SendToAll? || b.SendToActive? || b.ContactSupport? || b.EndSupportChat? {
      DecodeScopeOrUserButton(b);
    } else {
      DecodeOperatorButton(b);
    }
  }

  lemma DecodeIdButton(b: Button)
    requires b.ReplyTo? || b.CloseAndClean? || b.BlockUser? || b.UnblockUser? || b.ViewChat?
    ensures Decode(Render(b)) == Intended(b)
  {
    match b
    case ReplyTo(u) => DecodeReply(u);
    case CloseAndClean(u) => DecodeCloseClean(u);
    case BlockUser(u) => DecodeBlock(u);
    case UnblockUser(u) => DecodeUnblock(u);
    case ViewChat(u) => DecodeViewChat(u);
  }

  lemma DecodeScopeOrUserButton(b: Button)
    requires b.SendToAll? || b.SendToActive? || b.ContactSupport? || b.EndSupportChat?
    ensures b.SendToAll? || b.SendToActive? ==> Decode(Render(b)) == NoBranch
    ensures b.ContactSupport? || b.EndSupportChat? ==> Decode(Render(b)) == Intended(b)
  {
    var d := Render(b);
    match b
    case SendToAll => DecodeScope(d);
    case SendToActive => DecodeScope(d);
    case ContactSupport => DecodeUserData(d);
    case EndSupportChat => DecodeUserData(d);
  }

  lemma DecodeOperatorButton(b: Button)
    requires b.BackToPanel? || b.ActiveChatsView? || b.Statistics? || b.BroadcastMenu?
             || b.CleanChatHistory? || b.UserManagement? || b.SupportHistory? || b.BotSettings?
    ensures Decode(Render(b)) == Intended(b)
  {
    var d := Render(b);
    match b
    case BackToPanel => DecodePanelData(d);
    case ActiveChatsView => DecodePanelData(d);
    case Statistics => DecodePanelData(d);
    case BroadcastMenu => DecodePanelData(d);
    case CleanChatHistory => DecodePanelData(d);
    case UserManagement => DecodeListData(d);
    case SupportHistory => DecodeListData(d);
    case BotSettings => DecodeSettingsData(d);
  }

  // Constant callback strings. Each lemma takes the string as a variable:
  // stated on a literal, the verifier would evaluate the whole decoder on it.

  lemma DecodeScope(d: string)
    requires d == "broadcast_all" || d == "broadcast_active"
    ensures Decode(d) == NoBranch
  {
    assert Dispatch(d) == AdminPanelHandler by {
      assert d[..9] == "broadcast";
    }
    assert PanelBranch(d) == NoBranch by {
      Differs(d, "view_chat_", 0);
    }
  }

  lemma DecodeUserData(d: string)
    requires d == "help_support" || d == "end_support"
    ensures d == "help_support" ==> Decode(d) == HelpSupport
    ensures d == "end_support" ==> Decode(d) == EndSupport
  {
    if d == "help_support" {
      DecodeHelpData(d);
    } else {
      DecodeEndData(d);
    }
  }

  lemma DecodeHelpData(d: string)
    requires d == "help_support"
    ensures Decode(d) == HelpSupport
  {
    UserDispatch(d);
  }

  lemma DecodeEndData(d: string)
    requires d == "end_support"
    ensures Decode(d) == EndSupport
  {
    UserDispatch(d);
  }

  lemma UserDispatch(d: string)
    requires d == "help_support" || d == "end_support"
    ensures Dispatch(d) == UserHandler
  {
    assert d[0] == 'h' || d[0] == 'e';
    NotPanel(d);
    Differs(d, "reply_", 0);
    Differs(d, "close_clean_", 0);
    Differs(d, "block_", 0);
    Differs(d, "unblock_", 0);
  }

  lemma DecodePanelData(d: string)
    requires d in {"admin_panel", "view_active_chats", "bot_stats", "broadcast", "clean_chat"}
    ensures d == "clean_chat" ==> Decode(d) == CleanChat
    ensures d != "clean_chat" ==> Decode(d) == Report
  {
    assert PanelPattern(d) by {
      assert d[..|d|] == d;
    }
  }

  lemma DecodeListData(d: string)
    requires d == "user_management" || d == "support_history"
    ensures Decode(d) == Report
  {
    assert d[0] == 'u' || d[0] == 's';
    NotPanel(d);
    Differs(d, "reply_", 0);
    Differs(d, "close_clean_", 0);
  }

  lemma DecodeSettingsData(d: string)
    requires d == "bot_settings"
    ensures Decode(d) == Report
  {
    Differs(d, "bot_stats", 5);
    Differs(d, "broadcast", 1);
    NotPanelExcept(d, "bot_stats");
    Differs(d, "reply_", 0);
    Differs(d, "close_clean_", 0);
  }

  // Buttons carrying a user id: the handler is fixed by the prefix, the
  // branch reads the id back with `int(data.split("_")[k])`.

  lemma DecodeReply(u: int)
    ensures Decode(Render(ReplyTo(u))) == Reply(u)
  {
    assert Render(ReplyTo(u)) == "reply_" + IntToString(u);
    DecodeReplyData(u);
    assert Decode(Render(ReplyTo(u))) == Decode("reply_" + IntToString(u));
  }

  lemma DecodeReplyData(u: int)
    ensures Decode("reply_" + IntToString(u)) == Reply(u)
  {
    ReplyDispatch(IntToString(u));
    ReplyBranch(u);
  }

  lemma ReplyBranch(u: int)
    ensures ChatBranch("reply_" + IntToString(u)) == Reply(u)
  {
    var x := IntToString(u);
    var d := "reply_" + x;
    IdAfterOne("reply_", "reply", u);
    assert d[..6] == "reply_";
  }

  lemma ReplyDispatch(x: string)
    ensures Dispatch("reply_" + x) == AdminChatHandler
  {
    var d := "reply_" + x;
    assert d[0] == 'r';
    NotPanel(d);
    assert d[..6] == "reply_";
  }

  lemma DecodeCloseClean(u: int)
    ensures Decode(Render(CloseAndClean(u))) == CloseClean(u)
  {
    assert Render(CloseAndClean(u)) == "close_clean_" + IntToString(u);
    DecodeCloseCleanData(u);
    assert Decode(Render(CloseAndClean(u))) == Decode("close_clean_" + IntToString(u));
  }

  lemma DecodeCloseCleanData(u: int)
    ensures Decode("close_clean_" + IntToString(u)) == CloseClean(u)
  {
    CloseCleanDispatch(IntToString(u));
    CloseCleanBranch(u);
  }

  lemma CloseCleanBranch(u: int)
    ensures ChatBranch("close_clean_" + IntToString(u)) == CloseClean(u)
  {
    var x := IntToString(u);
    var d := "close_clean_" + x;
    IdAfterTwo("close_clean_", "close", "clean", u);
    assert d[..12] == "close_clean_";
    Differs(d, "reply_", 0);
  }

  lemma CloseCleanDispatch(x: string)
    ensures Dispatch("close_clean_" + x) == AdminChatHandler
  {
    var d := "close_clean_" + x;
    assert d[..12] == "close_clean_";
    Differs(d, "clean_chat", 2);
    NotPanelExcept(d, "clean_chat");
  }

  lemma DecodeBlock(u: int)
    ensures Decode(Render(BlockUser(u))) == Block(u)
  {
    assert Render(BlockUser(u)) == "block_" + IntToString(u);
    DecodeBlockData(u);
    assert Decode(Render(BlockUser(u))) == Decode("block_" + IntToString(u));
  }

  lemma DecodeBlockData(u: int)
    ensures Decode("block_" + IntToString(u)) == Block(u)
  {
    BlockDispatch(IntToString(u));
    BlockBranchOf(u);
  }

  lemma BlockBranchOf(u: int)
    ensures BlockBranch("block_" + IntToString(u)) == Block(u)
  {
    var x := IntToString(u);
    var d := "block_" + x;
    IdAfterOne("block_", "block", u);
    assert d[..6] == "block_";
  }

  lemma BlockDispatch(x: string)
    ensures Dispatch("block_" + x) == BlockHandler
  {
    var d := "block_" + x;
    assert d[..6] == "block_";
    Differs(d, "bot_stats", 1);
    Differs(d, "broadcast", 1);
    NotPanelExcept(d, "bot_stats");
    Differs(d, "reply_", 0);
    Differs(d, "close_clean_", 0);
  }

  lemma DecodeUnblock(u: int)
    ensures Decode(Render(UnblockUser(u))) == Unblock(u)
  {
    assert Render(UnblockUser(u)) == "unblock_" + IntToString(u);
    DecodeUnblockData(u);
    assert Decode(Render(UnblockUser(u))) == Decode("unblock_" + IntToString(u));
  }

  lemma DecodeUnblockData(u: int)
    ensures Decode("unblock_" + IntToString(u)) == Unblock(u)
  {
    UnblockDispatch(IntToString(u));
    UnblockBranchOf(u);
  }

  lemma UnblockBranchOf(u: int)
    ensures BlockBranch("unblock_" + IntToString(u)) == Unblock(u)
  {
    var x := IntToString(u);
    var d := "unblock_" + x;
    IdAfterOne("unblock_", "unblock", u);
    assert d[..8] == "unblock_";
    Differs(d, "block_", 0);
  }

  lemma UnblockDispatch(x: string)
    ensures Dispatch("unblock_" + x) == BlockHandler
  {
    var d := "unblock_" + x;
    assert d[..8] == "unblock_";
    NotPanel(d);
    Differs(d, "reply_", 0);
    Differs(d, "close_clean_", 0);
    assert d != "user_management" && d != "user_management\n" by {
      assert d[1] == 'n';
    }
  }

  lemma DecodeViewChat(u: int)
    ensures Decode(Render(ViewChat(u))) == Report
  {
    assert Render(ViewChat(u)) == "view_chat_" + IntToString(u);
    DecodeViewChatData(u);
    assert Decode(Render(ViewChat(u))) == Decode("view_chat_" + IntToString(u));
  }

  lemma DecodeViewChatData(u: int)
    ensures Decode("view_chat_" + IntToString(u)) == Report
  {
    ViewChatDispatch(IntToString(u));
    ViewChatBranch(u);
  }

  lemma ViewChatDispatch(x: string)
    ensures Dispatch("view_chat_" + x) == AdminPanelHandler
  {
    var d := "view_chat_" + x;
    assert d[..10] == "view_chat_";
  }

  lemma ViewChatBranch(u: int)
    ensures PanelBranch("view_chat_" + IntToString(u)) == Report
  {
    var d := "view_chat_" + IntToString(u);
    IdAfterTwo("view_chat_", "view", "chat", u);
    assert d[..10] == "view_chat_";
    ViewChatPrefix(d);
    ViewChatWithId(d);
  }

  /** Data starting `view_chat_` is none of the fixed panel words. */
  lemma ViewChatPrefix(d: string)
    requires |d| >= 10 && d[..10] == "view_chat_"
    ensures StartsWith(d, "view_chat_")
    ensures d !in {"admin_panel", "view_active_chats", "bot_stats", "broadcast"} && d != "clean_chat"
  {
    assert d[0] == d[..10][0] && d[5] == d[..10][5];
    NotFixedPanelWord(d);
  }

  /** A `view_chat_` string whose id field parses takes the view branch. */
  lemma ViewChatWithId(d: string)
    requires StartsWith(d, "view_chat_") && IdField(d, 2).Some?
    requires d !in {"admin_panel", "view_active_chats", "bot_stats", "broadcast"} && d != "clean_chat"
    ensures PanelBranch(d) == Report
  {
  }

  /** Data starting `v????c` is none of the fixed panel words. */
  lemma NotFixedPanelWord(d: string)
    requires |d| > 5 && d[0] == 'v' && d[5] == 'c'
    ensures d !in {"admin_panel", "view_active_chats", "bot_stats", "broadcast"} && d != "clean_chat"
  {
    assert "view_active_chats"[5] == 'a';
  }

  /** The id after a one-word prefix `a_` is field 1. */
  lemma IdAfterOne(p: string, a: string, n: int)
    requires '_' !in a && |a| > 0 && p == a + "_"
    ensures IdField(p + IntToString(n), 1) == Some(n)
  {
    var x := IntToString(n);
    assert Join([a], '_') == a;
    assert p + x == a + "_" + x;
    NumberField([a], n);
  }

  /** The id after a two-word prefix `a_b_` is field 2. */
  lemma IdAfterTwo(p: string, a: string, b: string, n: int)
    requires '_' !in a && '_' !in b && |a| > 0 && p == a + "_" + b + "_"
    ensures IdField(p + IntToString(n), 2) == Some(n)
  {
    var x := IntToString(n);
    var j := Join([a, b], '_');
    assert j == a + "_" + b by {
      assert Join([a, b][1..], '_') == b;
    }
    assert p + x == j + "_" + x;
    NumberField([a, b], n);
  }

  /** No alternative of the panel pattern starts with these letters. */
  lemma NotPanel(d: string)
    requires |d| > 0 && d[0] != 'a' && d[0] != 'v' && d[0] != 'b' && d[0] != 'c'
    ensures !PanelPattern(d)
  {
    assert "admin_panel"[0] == 'a' && "view_active_chats"[0] == 'v' && "view_chat_"[0] == 'v';
    assert "bot_stats"[0] == 'b' && "broadcast"[0] == 'b' && "clean_chat"[0] == 'c';
  }

  lemma Differs(d: string, w: string, k: nat)
    requires k < |d| && k < |w| && d[k] != w[k]
    ensures !StartsWith(d, w)
  {
  }

  /** When one alternative is ruled out by hand, the panel pattern can only
      match through the others, which all differ from `d` at the head. */
  lemma NotPanelExcept(d: string, w: string)
    requires |d| > 0 && !StartsWith(d, w)
    requires w in {"clean_chat", "bot_stats", "broadcast"}
    requires d[0] == w[0]
    ensures w == "clean_chat" ==> !PanelPattern(d)
    ensures w != "clean_chat" ==> (PanelPattern(d) ==> StartsWith(d, "bot_stats") || StartsWith(d, "broadcast"))
  {
    assert "admin_panel"[0] == 'a' && "view_active_chats"[0] == 'v' && "view_chat_"[0] == 'v';
    assert "bot_stats"[0] == 'b' && "broadcast"[0] == 'b' && "clean_chat"[0] == 'c';
  }

  /** The broadcast handler is dead code: every string its pattern accepts is
      taken first by the unanchored `broadcast` alternative of the panel
      pattern, so no callback string ever reaches it. */
  lemma BroadcastHandlerUnreachable(data: string)
    ensures !Dispatch(data).AdminBroadcastHandler?
    ensures !Decode(data).PickScope?
  {
    if BroadcastPattern(data) {
      assert data[..9] == "broadcast";
    }
  }
}

=== FILE: outbound.dfy ===
/** What the router asks the messaging platform to do, and the three loops
    of independent attempts in bot.py: the broadcast fan-out, the per-user
    clean-up of close & clean, and the operator-chat sweep of clean_chat.
    The platform itself is an oracle: a send to a chat in `sendFails`, or a
    delete of a message in `deleteFails`, raises; every other call succeeds. */
module Outbound {

  /** The messages the router sends or edits in, by purpose; their wording
      and keyboards are abstracted away. */
  datatype Notice =
    | Welcome                   // /start for a user
    | AdminPanel                // /start, /admin or a stray text for the operator
    | Refused                   // /admin or /stats from a user
    | PanelView                 // /stats for the operator, and the read-only panel views
    | Menu                      // a user's text outside support
    | SupportStarted            // help_support
    | SupportEnded              // end_support, to the user
    | UserLeft(user: int)       // end_support, to the operator
    | NewRequest(user: int)     // first text of a support entry, to the operator
    | Forwarded(user: int)      // later texts of a support entry, to the operator
    | FirstAck                  // "Message sent to admin!"
    | Ack                       // "Message sent!"
    | ReplyMode(user: int)      // reply_ pressed
    | OperatorReply             // the relayed operator text, to the user
    | ReplySent(user: int)
    | ReplyFailed(user: int)
    | NoTargets                 // broadcast with an empty target list
    | Broadcasting(total: nat)  // status message before the fan-out
    | BroadcastText             // the fanned-out text
    | BroadcastDone(sent: nat, failed: nat, total: nat)
    | BroadcastPrompt(total: nat)
    | ChatClosed(user: int, messages: nat, deleted: nat)
    | Resolved                  // close & clean, to the user
    | UserBlocked(user: int)
    | BlockedNotice             // block, to the user
    | UserUnblocked(user: int)
    | ChatCleaned(deleted: nat)

  datatype Action =
    | Send(to: int, notice: Notice, ok: bool)      // send_message / reply_text
    | Edit(chat: int, notice: Notice)              // edit_message_text, taken to succeed
    | Delete(chat: int, msg: int, ok: bool)        // delete_message

  /** The calls of a loop and how many of them succeeded and failed. */
  datatype Tally = Tally(acts: seq<Action>, ok: nat, failed: nat)

  /** Number of sends and deletes that went through. */
  function Succeeded(acts: seq<Action>): nat
    decreases |acts|
  {
    if |acts| == 0 then 0
    else (if !acts[0].Edit? && acts[0].ok then 1 else 0) + Succeeded(acts[1..])
  }

  /** Number of sends addressed to chat `t`. */
  function SendsTo(acts: seq<Action>, t: int): nat
    decreases |acts|
  {
    if |acts| == 0 then 0
    else (if acts[0].Send? && acts[0].to == t then 1 else 0) + SendsTo(acts[1..], t)
  }

  /** The broadcast targets other than the operator, in order. */
  function Recipients(targets: seq<int>, admin: int): (r: seq<int>)
    ensures |r| <= |targets|
    ensures forall t :: t in r <==> t in targets && t != admin
    decreases |targets|
  {
    if |targets| == 0 then []
    else if targets[0] == admin then Recipients(targets[1..], admin)
    else [targets[0]] + Recipients(targets[1..], admin)
  }

  predicate Distinct(xs: seq<int>) {
    forall i, j :: 0 <= i < j < |xs| ==> xs[i] != xs[j]
  }

  // ---------------------------------------------------------------------------
  // Broadcast fan-out (handle_broadcast)
  // ---------------------------------------------------------------------------

  /** The send loop of handle_broadcast: the operator is skipped, every other
      target gets one attempt, and a failure is counted, never fatal. */
  function Fanout(targets: seq<int>, admin: int, sendFails: set<int>): (r: Tally)
    ensures var rs := Recipients(targets, admin);
      && |r.acts| == |rs|
      && (forall i :: 0 <= i < |rs| ==> r.acts[i] == Send(rs[i], BroadcastText, rs[i] !in sendFails))
    ensures r.ok == Succeeded(r.acts)
    ensures r.ok + r.failed == |Recipients(targets, admin)|
    decreases |targets|
  {
    if |targets| == 0 then Tally([], 0, 0)
    else
      var t := targets[0];
      var rest := Fanout(targets[1..], admin, sendFails);
      if t == admin then rest
      else if t in sendFails then Tally([Send(t, BroadcastText, false)] + rest.acts, rest.ok, rest.failed + 1)
      else Tally([Send(t, BroadcastText, true)] + rest.acts, rest.ok + 1, rest.failed)
  }

  /** With distinct targets, every target but the operator is sent the
      broadcast exactly once and nobody else is sent anything. */
  lemma {:induction false} FanoutOncePerTarget(targets: seq<int>, admin: int, sendFails: set<int>, t: int)
    requires Distinct(targets)
    ensures SendsTo(Fanout(targets, admin, sendFails).acts, t) == (if t in targets && t != admin then 1 else 0)
    decreases |targets|
  {
    if |targets| > 0 {
      var rest := targets[1..];
      assert Distinct(rest);
      FanoutOncePerTarget(rest, admin, sendFails, t);
      assert targets[0] !in rest;
      var r := Fanout(targets, admin, sendFails);
      if targets[0] != admin {
        assert r.acts[1..] == Fanout(rest, admin, sendFails).acts;
      }
      assert t in targets <==> t == targets[0] || t in rest;
    }
  }

  /** With distinct targets, the operator is the only one skipped: what is
      sent plus what failed is the target count, less one when the operator
      is among the targets. */
  lemma {:induction false} RecipientsCount(targets: seq<int>, admin: int)
    requires Distinct(targets)
    ensures |Recipients(targets, admin)| == |targets| - (if admin in targets then 1 else 0)
    decreases |targets|
  {
    if |targets| > 0 {
      var rest := targets[1..];
      assert Distinct(rest);
      RecipientsCount(rest, admin);
      assert targets[0] !in rest;
      assert admin in targets <==> admin == targets[0] || admin in rest;
    }
  }

  /** No more calls succeed than were made. */
  lemma {:induction false} SucceededAtMost(acts: seq<Action>)
    ensures Succeeded(acts) <= |acts|
    decreases |acts|
  {
    if |acts| > 0 {
      SucceededAtMost(acts[1..]);
    }
  }

  lemma {:induction false} SendsToAppend(a: seq<Action>, b: seq<Action>, t: int)
    ensures SendsTo(a + b, t) == SendsTo(a, t) + SendsTo(b, t)
    decreases |a|
  {
    if |a| == 0 {
      assert a + b == b;
    } else {
      SendsToAppend(a[1..], b, t);
      assert (a + b)[0] == a[0];
      assert (a + b)[1..] == a[1..] + b;
    }
  }

  // ---------------------------------------------------------------------------
  // Per-user clean-up (close_clean_)
  // ---------------------------------------------------------------------------

  /** The delete loop of close & clean: every recorded message id is tried
      once, in order, and a failed delete does not stop the rest. */
  function DeleteEach(chat: int, ids: seq<int>, deleteFails: set<int>): (r: Tally)
    ensures |r.acts| == |ids|
    ensures forall i :: 0 <= i < |ids| ==> r.acts[i] == Delete(chat, ids[i], ids[i] !in deleteFails)
    ensures r.ok == Succeeded(r.acts)
    ensures r.ok + r.failed == |ids|
    decreases |ids|
  {
    if |ids| == 0 then Tally([], 0, 0)
    else
      var rest := DeleteEach(chat, ids[1..], deleteFails);
      if ids[0] in deleteFails then Tally([Delete(chat, ids[0], false)] + rest.acts, rest.ok, rest.failed + 1)
      else Tally([Delete(chat, ids[0], true)] + rest.acts, rest.ok + 1, rest.failed)
  }

  // ---------------------------------------------------------------------------
  // Operator-chat sweep (clean_chat)
  // ---------------------------------------------------------------------------

  /** Offsets 1 through 49 below the pressed message are swept, as by
      `range(1, 50)`. */
  const SweepEnd: nat := 50

  /** The delete loop of clean_chat from offset `i` on: it deletes the
      message `i` below the pressed one, then `i + 1`, ..., and stops at the
      first delete that fails. */
  function Sweep(chat: int, current: int, i: nat, deleteFails: set<int>): (r: Tally)
    requires 1 <= i <= SweepEnd
    ensures r.ok <= SweepEnd - i
    ensures i + r.ok == SweepEnd || current - (i + r.ok) in deleteFails
    ensures |r.acts| == r.ok + r.failed
    ensures r.failed == (if i + r.ok < SweepEnd then 1 else 0)
    ensures forall k :: 0 <= k < |r.acts| ==>
      r.acts[k] == Delete(chat, current - (i + k), current - (i + k) !in deleteFails)
    ensures forall k :: 0 <= k < |r.acts| ==> (r.acts[k].ok <==> k < r.ok)
    ensures r.ok == Succeeded(r.acts)
    decreases SweepEnd - i
  {
    if i == SweepEnd then Tally([], 0, 0)
    else if current - i in deleteFails then Tally([Delete(chat, current - i, false)], 0, 1)
    else
      var rest := Sweep(chat, current, i + 1, deleteFails);
      Tally([Delete(chat, current - i, true)] + rest.acts, rest.ok + 1, rest.failed)
  }
}

=== FILE: properties.dfy ===
/** Properties of the router that span several events or hold in every
    reachable state: the bookkeeping invariant of support entries, what a
    pressed button really does, and where a user can hold more than one
    active session. */
module RouterProperties {
  import opened PyText
  import opened Callbacks
  import opened Store
  import opened Outbound
  import opened Router

  // ---------------------------------------------------------------------------
  // The entry invariant
  // ---------------------------------------------------------------------------

  /** An entry's own bookkeeping: a waiting entry has forwarded nothing, and
      at most one operator message is recorded per counted text. */
  predicate Coherent(e: Entry) {
    (e.waiting ==> e.count == 0 && e.msgIds == []) && |e.msgIds| <= e.count
  }

  /** Session `sid` is an active row of user `u`. */
  ghost predicate OwnsActive(rows: Sessions, sid: int, u: int) {
    exists i :: 0 <= i < |rows| && rows[i].id == sid && rows[i].user == u && rows[i].status == Active
  }

  /** Session ids are unique and positive, and every support entry is
      coherent and points at an active session row of its own user. */
  ghost predicate Inv(s: State) {
    && UniqueIds(s.sessions)
    && (forall i :: 0 <= i < |s.sessions| ==> s.sessions[i].id >= 1)
    && (forall u :: u in s.chats ==> Coherent(s.chats[u]) && OwnsActive(s.sessions, s.chats[u].sessionId, u))
  }

  /** A process just started on an existing database: the tables are what
      earlier runs left (AUTOINCREMENT ids are unique and positive), while
      the support entries and the operator modes start empty. */
  function Initial(admin: int, users: Users, sessions: Sessions): (s: State)
    requires UniqueIds(sessions) && forall i :: 0 <= i < |sessions| ==> sessions[i].id >= 1
    ensures Inv(s)
    ensures s.admin == admin && s.users == users && s.sessions == sessions
    ensures s.chats == map[] && s.replyTo == None && s.broadcast == None
  {
    State(admin, users, sessions, map[], None, None)
  }

  /** Rows of different users never share an id. */
  lemma DistinctOwners(rows: Sessions, i: int, j: int)
    requires UniqueIds(rows)
    requires 0 <= i < |rows| && 0 <= j < |rows|
    requires rows[i].user != rows[j].user
    ensures rows[i].id != rows[j].id
  {
  }

  /** Dropping an entry (and possibly closing the session it points at) keeps
      the invariant: no other entry points at that session. */
  lemma {:induction false} EndingKeepsInv(s: State, t: State, u: int, closer: Closer)
    requires Inv(s)
    requires u !in t.chats && OthersKept(s.chats, t.chats, u)
    requires t.sessions == s.sessions || EndedRow(s.sessions, t.sessions, Lookup(s.chats, u), closer)
    ensures Inv(t)
  {
    var e := Lookup(s.chats, u);
    if t.sessions != s.sessions && e.sessionId != 0 {
      assert u in s.chats;
      var i :| 0 <= i < |s.sessions| && s.sessions[i].id == e.sessionId && s.sessions[i].user == u
               && s.sessions[i].status == Active;
      forall k | 0 <= k < |s.sessions| ensures t.sessions[k].id == s.sessions[k].id {
      }
      forall v | v in t.chats ensures Coherent(t.chats[v]) && OwnsActive(t.sessions, t.chats[v].sessionId, v) {
        var j :| 0 <= j < |s.sessions| && s.sessions[j].id == s.chats[v].sessionId && s.sessions[j].user == v
                 && s.sessions[j].status == Active;
        DistinctOwners(s.sessions, i, j);
        assert t.sessions[j] == s.sessions[j];
      }
    }
  }

  /** A text keeps the invariant: the sender's entry, if any, stays on the
      same session and stays coherent. */
  lemma {:induction false} TextKeepsInv(s: State, u: int, o: Oracle)
    requires Inv(s)
    ensures Inv(OnText(s, u, o).st)
  {
    var t := OnText(s, u, o).st;
    if u != s.admin && u in s.chats {
      forall v | v in t.chats ensures Coherent(t.chats[v]) && OwnsActive(t.sessions, t.chats[v].sessionId, v) {
        if v == u {
          assert Coherent(s.chats[u]);
        }
      }
    }
  }

  /** help_support keeps the invariant: the new row has a fresh positive id,
      and the rows other entries point at are untouched. */
  lemma {:induction false} HelpKeepsInv(s: State, u: int)
    requires Inv(s)
    ensures Inv(OnHelpSupport(s, u).st)
  {
    var t := OnHelpSupport(s, u).st;
    var n := |s.sessions|;
    forall k | 0 <= k < n ensures t.sessions[k] == s.sessions[k] {
      assert t.sessions[..n][k] == s.sessions[k];
    }
    forall v | v in t.chats ensures Coherent(t.chats[v]) && OwnsActive(t.sessions, t.chats[v].sessionId, v) {
      if v == u {
        assert t.sessions[n].id == t.chats[u].sessionId;
      } else {
        var j :| 0 <= j < n && s.sessions[j].id == s.chats[v].sessionId && s.sessions[j].user == v
                 && s.sessions[j].status == Active;
        assert t.sessions[j] == s.sessions[j];
      }
    }
  }

  lemma {:induction false} PressKeepsInv(s: State, u: int, cb: Callback, message: int, o: Oracle)
    requires Inv(s)
    ensures Inv(OnPress(s, u, cb, message, o).st)
  {
    if !(cb.AdminOnly() && u != s.admin) {
      match cb
      case HelpSupport => HelpKeepsInv(s, u);
      case EndSupport => EndingKeepsInv(s, OnEndSupport(s, u, o).st, u, ByUser);
      case CloseClean(t) => EndingKeepsInv(s, OnCloseClean(s, t, o).st, t, ByAdmin);
      case Block(t) => EndingKeepsInv(s, OnBlock(s, t, o).st, t, ByAdmin);
      case _ =>
    }
  }

  /** Every update but the exit hook keeps the invariant. */
  lemma {:induction false} StepKeepsInv(s: State, e: Event, o: Oracle)
    requires Inv(s) && !e.Shutdown?
    ensures Inv(Step(s, e, o).st)
  {
    match e
    case Command(u, name) =>
      if name == "start" || name == "help" {
        EndingKeepsInv(s, OnStart(s, u, o).st, u, ByUser);
      } else if !(name == "admin" || name == "stats") {
        TextKeepsInv(s, u, o);
      }
    case Text(u) => TextKeepsInv(s, u, o);
    case Press(u, data, message) => PressKeepsInv(s, u, Decode(data), message, o);
  }

  /** The exit hook leaves no session active for anyone. */
  lemma ShutdownClosesAll(s: State, o: Oracle, u: int)
    ensures ActiveCount(Step(s, Shutdown, o).st.sessions, u) == 0
  {
    NoneActiveAfterShutdown(s.sessions, u);
  }

  // ---------------------------------------------------------------------------
  // Broadcast mode
  // ---------------------------------------------------------------------------

  /** Broadcast mode is never switched on: the pattern of the only handler
      that sets it is shadowed by the operator-panel pattern, so from a state
      without it no update ever reaches handle_broadcast's sending path. */
  lemma {:induction false} BroadcastNeverArmed(s: State, e: Event, o: Oracle)
    requires s.broadcast.None?
    ensures Step(s, e, o).st.broadcast.None?
  {
    match e
    case Press(u, data, message) =>
      var cb := Decode(data);
      BroadcastHandlerUnreachable(data);
      PressDecoded(s, u, data, cb, message, o);
      PressNeverArms(s, u, cb, message, o);
    case _ =>
  }

  /** No decoded press but a scope choice touches the broadcast mode. */
  lemma PressNeverArms(s: State, u: int, cb: Callback, message: int, o: Oracle)
    requires s.broadcast.None? && !cb.PickScope?
    ensures OnPress(s, u, cb, message, o).st.broadcast.None?
  {
  }

  /** When a broadcast does run, each target other than the operator is sent
      the text exactly once, the operator gets only the status message, and
      the tally accounts for every target but the operator. */
  lemma {:induction false} BroadcastReachesEachOnce(s: State, o: Oracle, t: int)
    requires s.broadcast.Some? && o.Delivers(s.admin)
    requires |Targets(s, s.broadcast.value)| > 0
    ensures var targets := Targets(s, s.broadcast.value);
      SendsTo(OnBroadcast(s, o).acts, t) == (if t in targets && t != s.admin then 1 else 0) + (if t == s.admin then 1 else 0)
    ensures var targets := Targets(s, s.broadcast.value);
      var last := OnBroadcast(s, o).acts[|OnBroadcast(s, o).acts| - 1];
      && last.Edit? && last.notice.BroadcastDone?
      && last.notice.sent + last.notice.failed == |targets| - (if s.admin in targets then 1 else 0)
  {
    var targets := Targets(s, s.broadcast.value);
    var acts := OnBroadcast(s, o).acts;
    var f := Fanout(targets, s.admin, o.sendFails);
    var head := [acts[0]];
    var tail := [acts[|acts| - 1]];
    assert acts == head + f.acts + tail;
    SendsToAppend(head + f.acts, tail, t);
    SendsToAppend(head, f.acts, t);
    assert SendsTo(tail, t) == 0 by {
      assert tail[1..] == [];
    }
    assert SendsTo(head, t) == (if t == s.admin then 1 else 0) by {
      assert head[1..] == [];
    }
    FanoutOncePerTarget(targets, s.admin, o.sendFails, t);
    RecipientsCount(targets, s.admin);
  }

  // ---------------------------------------------------------------------------
  // Buttons and their effect
  // ---------------------------------------------------------------------------

  /** Buttons meant for the operator do nothing when anyone else presses
      them: the operator handlers return before touching anything. */
  lemma OperatorOnly(s: State, u: int, data: string, message: int, o: Oracle)
    requires Decode(data).AdminOnly() && u != s.admin
    ensures Step(s, Press(u, data, message), o) == Next(s, [])
  {
  }

  /** A press whose data decodes to `cb` runs the branch for `cb`. */
  lemma PressDecoded(s: State, u: int, data: string, cb: Callback, message: int, o: Oracle)
    requires Decode(data) == cb
    ensures Step(s, Press(u, data, message), o) == OnPress(s, u, cb, message, o)
  {
  }

  /** Pressing the reply button for `t` and then typing relays the text to
      `t`, whichever entries exist, as long as no broadcast is pending. */
  lemma {:induction false} ReplyReachesPressedUser(s: State, t: int, data: string, message: int, o1: Oracle, o2: Oracle)
    requires data == Render(ReplyTo(t))
    requires s.broadcast.None? && t != 0
    ensures var s1 := Step(s, Press(s.admin, data, message), o1).st;
      && s1.replyTo == Some(t)
      && Step(s1, Text(s.admin), o2).acts[0] == Send(t, OperatorReply, o2.Delivers(t))
  {
    DecodeReply(t);
    PressDecoded(s, s.admin, data, Reply(t), message, o1);
  }

  /** Pressing help_support twice opens two active sessions for the same
      user: the code keeps no one-active-session-per-user rule. */
  lemma {:induction false} HelpTwiceOpensTwo(s: State, u: int, data: string, m1: int, m2: int, o1: Oracle, o2: Oracle)
    requires data == Render(ContactSupport) && !o1.answerFails && !o2.answerFails
    ensures var s1 := Step(s, Press(u, data, m1), o1).st;
      var s2 := Step(s1, Press(u, data, m2), o2).st;
      ActiveCount(s2.sessions, u) == ActiveCount(s.sessions, u) + 2
  {
    var s1 := OnHelpSupport(s, u).st;
    DecodeHelpData(data);
    HelpStep(s, u, data, m1, o1);
    HelpStep(s1, u, data, m2, o2);
    var s2 := OnHelpSupport(s1, u).st;
    assert s1.sessions == s.sessions + [s1.sessions[|s.sessions|]];
    assert s2.sessions == s1.sessions + [s2.sessions[|s1.sessions|]];
    ActiveCountAppend(s.sessions, s1.sessions[|s.sessions|], u);
    ActiveCountAppend(s1.sessions, s2.sessions[|s1.sessions|], u);
  }

  /** help_support followed by end_support: the session opened is closed by
      the user with a count of 0, and the entries are as before except that
      the user has none. */
  lemma {:induction false} HelpThenEnd(s: State, u: int, help: string, end: string, m1: int, m2: int, o1: Oracle, o2: Oracle)
    requires help == Render(ContactSupport) && end == Render(EndSupportChat)
    requires !o1.answerFails && !o2.answerFails
    ensures var s1 := Step(s, Press(u, help, m1), o1).st;
      var s2 := Step(s1, Press(u, end, m2), o2).st;
      var n := |s.sessions|;
      && |s2.sessions| == n + 1
      && s2.sessions[..n] == s.sessions
      && s2.sessions[n].user == u && s2.sessions[n].status == Closed
      && s2.sessions[n].endedBy == EndedBy(ByUser) && s2.sessions[n].count == 0
      && s2.chats == s.chats - {u}
  {
    DecodeHelpData(help);
    DecodeEndData(end);
    HelpStep(s, u, help, m1, o1);
    EndStep(OnHelpSupport(s, u).st, u, end, m2, o2);
    HelpThenEndRows(s, u, o2);
    HelpThenEndChats(s, u, o2);
  }

  /** A help_support press whose acknowledgement raises opens no session:
      the handler stops before the insert. */
  lemma HelpAnswerFails(s: State, u: int, data: string, message: int, o: Oracle)
    requires data == Render(ContactSupport) && o.answerFails
    ensures Step(s, Press(u, data, message), o) == Next(s, [])
  {
    DecodeHelpData(data);
    PressDecoded(s, u, data, HelpSupport, message, o);
  }

  /** The contact-support button runs help_support once acknowledged. */
  lemma HelpStep(s: State, u: int, data: string, message: int, o: Oracle)
    requires Decode(data) == HelpSupport && !o.answerFails
    ensures Step(s, Press(u, data, message), o) == OnHelpSupport(s, u)
  {
    PressDecoded(s, u, data, HelpSupport, message, o);
  }

  /** The end-support button runs end_support once acknowledged. */
  lemma EndStep(s: State, u: int, data: string, message: int, o: Oracle)
    requires Decode(data) == EndSupport && !o.answerFails
    ensures Step(s, Press(u, data, message), o) == OnEndSupport(s, u, o)
  {
    PressDecoded(s, u, data, EndSupport, message, o);
  }

  lemma {:induction false} HelpThenEndRows(s: State, u: int, o: Oracle)
    ensures var s2 := OnEndSupport(OnHelpSupport(s, u).st, u, o).st;
      var n := |s.sessions|;
      && |s2.sessions| == n + 1
      && s2.sessions[..n] == s.sessions
      && s2.sessions[n].user == u && s2.sessions[n].status == Closed
      && s2.sessions[n].endedBy == EndedBy(ByUser) && s2.sessions[n].count == 0
  {
    var n := |s.sessions|;
    var s1 := OnHelpSupport(s, u).st;
    var s2 := OnEndSupport(s1, u, o).st;
    var row := s1.sessions[n];
    assert Lookup(s1.chats, u) == Entry(true, [], row.id, 0);
    assert Closes(s1.sessions, s2.sessions, row.id, ByUser, 0);
    forall k | 0 <= k < n ensures s2.sessions[k] == s.sessions[k] {
      assert s1.sessions[k] == s1.sessions[..n][k];
    }
    assert s2.sessions[..n] == s.sessions;
  }

  lemma {:induction false} HelpThenEndChats(s: State, u: int, o: Oracle)
    ensures OnEndSupport(OnHelpSupport(s, u).st, u, o).st.chats == s.chats - {u}
  {
    var s1 := OnHelpSupport(s, u).st;
    var c := OnEndSupport(s1, u, o).st.chats;
    assert c.Keys == s.chats.Keys - {u} by {
      forall v ensures v in c <==> v in s.chats && v != u {
        if v != u {
          assert v in c <==> v in s1.chats;
        }
      }
    }
    forall v | v in c ensures c[v] == (s.chats - {u})[v] {
      assert c[v] == s1.chats[v];
    }
  }

  /** Only the first text of an entry is framed as a new request: the next
      one is a plain forward. */
  lemma {:induction false} NewRequestOnlyFirst(s: State, u: int, o1: Oracle, o2: Oracle)
    requires u != s.admin && u in s.chats
    ensures var r1 := Step(s, Text(u), o1);
      var r2 := Step(r1.st, Text(u), o2);
      && r1.acts[0] == Send(s.admin, if s.chats[u].waiting then NewRequest(u) else Forwarded(u), o1.Delivers(s.admin))
      && r2.acts[0] == Send(s.admin, Forwarded(u), o2.Delivers(s.admin))
      && r2.st.chats[u].count == s.chats[u].count + 2
  {
  }

  /** close & clean for a user in support (the data of the button
      `Render(CloseAndClean(t))`, or any other that decodes the same way)
      closes that user's own session row, as the operator, with the entry's
      message count. */
  lemma CloseCleanEndsOwnSession(s: State, t: int, data: string, message: int, o: Oracle)
    requires Decode(data) == CloseClean(t)
    requires Inv(s) && t in s.chats
    ensures var s1 := Step(s, Press(s.admin, data, message), o).st;
      var e := s.chats[t];
      && t !in s1.chats
      && ActiveCount(s1.sessions, t) < ActiveCount(s.sessions, t)
      && |s1.sessions| == |s.sessions|
      && forall i :: 0 <= i < |s.sessions| && s.sessions[i].id == e.sessionId ==>
           s1.sessions[i] == s.sessions[i].(status := Closed, endedBy := EndedBy(ByAdmin), count := e.count)
  {
    PressDecoded(s, s.admin, data, CloseClean(t), message, o);
    CloseCleanOwnRow(s, t, o);
  }

  lemma {:induction false} CloseCleanOwnRow(s: State, t: int, o: Oracle)
    requires Inv(s) && t in s.chats
    ensures var s1 := OnCloseClean(s, t, o).st;
      var e := s.chats[t];
      && t !in s1.chats
      && ActiveCount(s1.sessions, t) < ActiveCount(s.sessions, t)
      && |s1.sessions| == |s.sessions|
      && forall i :: 0 <= i < |s.sessions| && s.sessions[i].id == e.sessionId ==>
           s1.sessions[i] == s.sessions[i].(status := Closed, endedBy := EndedBy(ByAdmin), count := e.count)
  {
    var e := s.chats[t];
    var s1 := OnCloseClean(s, t, o).st;
    var i :| 0 <= i < |s.sessions| && s.sessions[i].id == e.sessionId && s.sessions[i].user == t
             && s.sessions[i].status == Active;
    ClosingLowersCount(s.sessions, s1.sessions, e.sessionId, ByAdmin, e.count, i, t);
  }

  /** close & clean never reports more deletions than the entry recorded
      forwards. */
  lemma CloseCleanDeletesAtMostRecorded(s: State, t: int, o: Oracle)
    ensures var n := |Lookup(s.chats, t).msgIds|;
      var last := OnCloseClean(s, t, o).acts[n];
      last.notice.ChatClosed? && last.notice.deleted <= n
  {
    var n := |Lookup(s.chats, t).msgIds|;
    SucceededAtMost(OnCloseClean(s, t, o).acts[..n]);
  }

  /** Closing a session that is an active row of `u` lowers `u`'s count of
      active rows. */
  lemma {:induction false} ClosingLowersCount(rows: Sessions, after: Sessions, sid: int, closer: Closer, count: nat, i: int, u: int)
    requires Closes(rows, after, sid, closer, count)
    requires 0 <= i < |rows| && rows[i].id == sid && rows[i].user == u && rows[i].status == Active
    ensures ActiveCount(after, u) < ActiveCount(rows, u)
    decreases |rows|
  {
    assert after[0] == (if rows[0].id == sid then rows[0].(status := Closed, endedBy := EndedBy(closer), count := count) else rows[0]);
    assert Closes(rows[1..], after[1..], sid, closer, count) by {
      forall k | 0 <= k < |rows| - 1 ensures after[1..][k] == (if rows[1..][k].id == sid then rows[1..][k].(status := Closed, endedBy := EndedBy(closer), count := count) else rows[1..][k]) {
        assert after[1..][k] == after[k + 1];
      }
    }
    if i == 0 {
      ClosingNeverRaises(rows[1..], after[1..], sid, closer, count, u);
    } else {
      ClosingLowersCount(rows[1..], after[1..], sid, closer, count, i - 1, u);
    }
  }

  /** Closing rows never adds an active row. */
  lemma {:induction false} ClosingNeverRaises(rows: Sessions, after: Sessions, sid: int, closer: Closer, count: nat, u: int)
    requires Closes(rows, after, sid, closer, count)
    ensures ActiveCount(after, u) <= ActiveCount(rows, u)
    decreases |rows|
  {
    if |rows| > 0 {
      assert after[0] == (if rows[0].id == sid then rows[0].(status := Closed, endedBy := EndedBy(closer), count := count) else rows[0]);
      assert Closes(rows[1..], after[1..], sid, closer, count) by {
        forall k | 0 <= k < |rows| - 1 ensures after[1..][k] == (if rows[1..][k].id == sid then rows[1..][k].(status := Closed, endedBy := EndedBy(closer), count := count) else rows[1..][k]) {
          assert after[1..][k] == after[k + 1];
        }
      }
      ClosingNeverRaises(rows[1..], after[1..], sid, closer, count, u);
    }
  }

  /** Blocking a user in support drops the entry but leaves the session row
      active: afterwards the user has an active session and no entry. */
  lemma {:induction false} BlockLeavesSessionOpen(s: State, t: int, data: string, message: int, o: Oracle)
    requires data == Render(BlockUser(t)) && !o.answerFails
    requires Inv(s) && t in s.chats
    ensures var s1 := Step(s, Press(s.admin, data, message), o).st;
      t !in s1.chats && ActiveCount(s1.sessions, t) >= 1
  {
    DecodeBlock(t);
    PressDecoded(s, s.admin, data, Block(t), message, o);
    var e := s.chats[t];
    var i :| 0 <= i < |s.sessions| && s.sessions[i].id == e.sessionId && s.sessions[i].user == t
             && s.sessions[i].status == Active;
    ActiveRowCounts(s.sessions, i, t);
  }

  lemma {:induction false} ActiveRowCounts(rows: Sessions, i: int, u: int)
    requires 0 <= i < |rows| && rows[i].user == u && rows[i].status == Active
    ensures ActiveCount(rows, u) >= 1
    decreases i
  {
    if i > 0 {
      ActiveRowCounts(rows[1..], i - 1, u);
    }
  }

  /** Unblocking right after blocking gives back the users table, when the
      user's row (if any) was active. */
  lemma UnblockUndoesBlock(s: State, t: int, o: Oracle)
    requires t in s.users ==> s.users[t].active
    ensures OnUnblock(OnBlock(s, t, o).st, t).st.users == s.users
  {
    var after := OnUnblock(OnBlock(s, t, o).st, t).st.users;
    assert forall v :: v in s.users ==> after[v] == s.users[v];
  }

  /** A block does not stick: the blocked user's next text marks the row
      active again, so the next all-users broadcast includes them. */
  lemma {:induction false} BlockUndoneByText(s: State, t: int, data: string, message: int, o1: Oracle, o2: Oracle)
    requires data == Render(BlockUser(t)) && !o1.answerFails
    requires t != s.admin
    ensures var s1 := Step(s, Press(s.admin, data, message), o1).st;
      var s2 := Step(s1, Text(t), o2).st;
      && (t in s.users ==> !s1.users[t].active)
      && t in s2.users && s2.users[t].active
      && t in Targets(s2, All)
  {
    var s1 := OnBlock(s, t, o1).st;
    assert Step(s, Press(s.admin, data, message), o1).st == s1 by {
      DecodeBlock(t);
      PressDecoded(s, s.admin, data, Block(t), message, o1);
    }
    assert Step(s1, Text(t), o2).st.users == Touch(s1.users, t);
  }
}

=== FILE: pytext.dfy ===
/** The small part of Python's string handling the router leans on when it reads
    a user id back out of a button's callback string: `str.startswith`,
    `str.split("_")`, `str(int)` and `int(str)`. */
module PyText {

  datatype Option<+T> = None | Some(value: T)

  predicate StartsWith(s: string, prefix: string) {
    |prefix| <= |s| && s[..|prefix|] == prefix
  }

  // ---------------------------------------------------------------------------
  // str.split(sep) and its inverse, sep.join(parts)
  // ---------------------------------------------------------------------------

  /** `sep.join(parts)`; Python's split never yields an empty list, so neither
      does anything joined here. */
  function Join(parts: seq<string>, sep: char): string
    requires |parts| >= 1
  {
    if |parts| == 1 then parts[0] else parts[0] + [sep] + Join(parts[1..], sep)
  }

  /** `s.split(sep)` for a one-character separator: every occurrence cuts, so
      empty fields are kept (`"a__b"` gives `["a", "", "b"]`, `""` gives `[""]`). */
  function Split(s: string, sep: char): (r: seq<string>)
    ensures |r| >= 1
    ensures forall i :: 0 <= i < |r| ==> sep !in r[i]
    ensures Join(r, sep) == s
    decreases |s|
  {
    if |s| == 0 then [""]
    else if s[0] == sep then
      var rest := Split(s[1..], sep);
      assert [s[0]] + s[1..] == s;
      [""] + rest
    else
      var rest := Split(s[1..], sep);
      var r := [[s[0]] + rest[0]] + rest[1..];
      assert r[1..] == rest[1..];
      assert Join(r, sep) == [s[0]] + Join(rest, sep) by {
        if |rest| > 1 {
          assert rest == [rest[0]] + rest[1..];
        }
      }
      assert [s[0]] + s[1..] == s;
      r
  }

  /** Splitting undoes joining whenever no part contains the separator. */
  lemma {:induction false} SplitJoin(parts: seq<string>, sep: char)
    requires |parts| >= 1
    requires forall i :: 0 <= i < |parts| ==> sep !in parts[i]
    ensures Split(Join(parts, sep), sep) == parts
    decreases |parts|, |parts[0]|
  {
    var p := parts[0];
    if |p| == 0 {
      if |parts| == 1 {
        assert Join(parts, sep) == "";
      } else {
        SplitJoin(parts[1..], sep);
        var s := Join(parts, sep);
        assert s == [sep] + Join(parts[1..], sep);
        assert s[1..] == Join(parts[1..], sep);
        assert [""] + parts[1..] == parts;
      }
    } else {
      var tail := [p[1..]] + parts[1..];
      assert forall i :: 0 <= i < |tail| ==> sep !in tail[i] by {
        forall i | 0 <= i < |tail| ensures sep !in tail[i] {
          if i == 0 {
            assert sep !in p;
          } else {
            assert tail[i] == parts[i];
          }
        }
      }
      SplitJoin(tail, sep);
      var s := Join(parts, sep);
      var t := Join(tail, sep);
      assert s == [p[0]] + t by {
        assert p == [p[0]] + p[1..];
        if |parts| > 1 {
          assert tail[1..] == parts[1..];
        }
      }
      assert s[0] == p[0] && s[1..] == t;
      assert p[0] != sep by { assert p[0] in p; }
      var rest := Split(t, sep);
      assert rest == tail;
      assert [[p[0]] + p[1..]] + parts[1..] == parts by {
        assert [p[0]] + p[1..] == p;
      }
    }
  }

  /** `s.split(sep)[k]`, with `None` standing for the IndexError. */
  function Field(s: string, sep: char, k: nat): (r: Option<string>)
    ensures r.Some? ==> sep !in r.value
  {
    var parts := Split(s, sep);
    if k < |parts| then Some(parts[k]) else None
  }

  // ---------------------------------------------------------------------------
  // str(n)
  // ---------------------------------------------------------------------------

  predicate IsDigit(c: char) {
    '0' <= c <= '9'
  }

  function DigitChar(d: nat): (c: char)
    requires d < 10
    ensures IsDigit(c)
  {
    "0123456789"[d]
  }

  function DigitValue(c: char): nat
    requires IsDigit(c)
  {
    (c as int - '0' as int) as nat
  }

  /** Decimal digits of `n`, most significant first, no leading zero. */
  function NatToString(n: nat): (r: string)
    ensures |r| >= 1
    ensures forall i :: 0 <= i < |r| ==> IsDigit(r[i])
    decreases n
  {
    if n < 10 then [DigitChar(n)] else NatToString(n / 10) + [DigitChar(n % 10)]
  }

  /** `str(n)` for a Python int: a minus sign exactly for a negative number,
      then decimal digits only. */
  function IntToString(n: int): (r: string)
    ensures |r| >= 1 && (r[0] == '-' <==> n < 0)
    ensures forall i :: (if n < 0 then 1 else 0) <= i < |r| ==> IsDigit(r[i])
  {
    if n < 0 then "-" + NatToString(-n) else NatToString(n)
  }

  /** Value of a non-empty run of ASCII digits, read left to right. */
  function DigitsValue(ds: string): nat
    requires forall i :: 0 <= i < |ds| ==> IsDigit(ds[i])
    decreases |ds|
  {
    if |ds| == 0 then 0
    else DigitsValue(ds[..|ds| - 1]) * 10 + DigitValue(ds[|ds| - 1])
  }

  lemma {:induction false} DigitRoundTrip(d: nat)
    requires d < 10
    ensures DigitValue(DigitChar(d)) == d
  {
    var s := "0123456789";
    assert s[0] == '0' && s[1] == '1' && s[2] == '2' && s[3] == '3' && s[4] == '4';
    assert s[5] == '5' && s[6] == '6' && s[7] == '7' && s[8] == '8' && s[9] == '9';
  }

  lemma {:induction false} NatRoundTrip(n: nat)
    ensures DigitsValue(NatToString(n)) == n
    decreases n
  {
    var r := NatToString(n);
    if n < 10 {
      DigitRoundTrip(n);
      assert r[..0] == [];
    } else {
      NatRoundTrip(n / 10);
      DigitRoundTrip(n % 10);
      assert r[..|r| - 1] == NatToString(n / 10);
    }
  }

  // ---------------------------------------------------------------------------
  // int(s)
  // ---------------------------------------------------------------------------

  /** The characters Python's `str.strip()` and `int()` treat as white space:
      the ASCII controls 9-13 and 28-31, the space, and the Unicode space
      separators, line and paragraph separators. */
  const Whitespace: set<char> := {
    '\t', '\n', '\U{0B}', '\U{0C}', '\r', '\U{1C}', '\U{1D}', '\U{1E}', '\U{1F}', ' ',
    '\U{85}', '\U{A0}', '\U{1680}',
    '\U{2000}', '\U{2001}', '\U{2002}', '\U{2003}', '\U{2004}', '\U{2005}',
    '\U{2006}', '\U{2007}', '\U{2008}', '\U{2009}', '\U{200A}',
    '\U{2028}', '\U{2029}', '\U{202F}', '\U{205F}', '\U{3000}'
  }

  predicate IsSpace(c: char) {
    c in Whitespace
  }

  /** The first position at or after `k` that is not white space. */
  function SpacesFrom(s: string, k: nat): (j: nat)
    requires k <= |s|
    ensures k <= j <= |s|
    ensures forall i :: k <= i < j ==> IsSpace(s[i])
    ensures j < |s| ==> !IsSpace(s[j])
    decreases |s| - k
  {
    if k < |s| && IsSpace(s[k]) then SpacesFrom(s, k + 1) else k
  }

  /** The position just after the last character before `k` that is not
      white space. */
  function SpacesBefore(s: string, k: nat): (j: nat)
    requires k <= |s|
    ensures j <= k
    ensures forall i :: j <= i < k ==> IsSpace(s[i])
    ensures j > 0 ==> !IsSpace(s[j - 1])
    decreases k
  {
    if k > 0 && IsSpace(s[k - 1]) then SpacesBefore(s, k - 1) else k
  }

  /** `s` without its leading white space: a suffix of `s`, everything cut
      off is white space, and what is left does not start with white space. */
  function StripLeft(s: string): (r: string)
    ensures |r| <= |s| && r == s[|s| - |r|..]
    ensures forall i :: 0 <= i < |s| - |r| ==> IsSpace(s[i])
    ensures |r| > 0 ==> !IsSpace(r[0])
  {
    s[SpacesFrom(s, 0)..]
  }

  /** `s` without its trailing white space: a prefix of `s`, everything cut
      off is white space, and what is left does not end with white space. */
  function StripRight(s: string): (r: string)
    ensures |r| <= |s| && r == s[..|r|]
    ensures forall i :: |r| <= i < |s| ==> IsSpace(s[i])
    ensures |r| > 0 ==> !IsSpace(r[|r| - 1])
  {
    s[..SpacesBefore(s, |s|)]
  }

  function Strip(s: string): string {
    StripRight(StripLeft(s))
  }

  /** Python's literal digit grouping: digits, with single underscores allowed
      only between two digits (`"1_000"`). */
  predicate DigitGroups(t: string) {
    && |t| >= 1
    && IsDigit(t[0]) && IsDigit(t[|t| - 1])
    && (forall i :: 0 <= i < |t| ==> IsDigit(t[i]) || t[i] == '_')
    && (forall i, j :: 0 <= i < |t| && 0 <= j < |t| && j == i + 1 ==> t[i] != '_' || t[j] != '_')
  }

  /** `t` with its underscores taken out: only digits are left, and every
      digit of `t` is kept as often as it occurs (in order, by
      DropUnderscoresAppend). */
  function DropUnderscores(t: string): (r: string)
    requires forall i :: 0 <= i < |t| ==> IsDigit(t[i]) || t[i] == '_'
    ensures forall i :: 0 <= i < |r| ==> IsDigit(r[i])
    ensures forall c :: c != '_' ==> multiset(r)[c] == multiset(t)[c]
    decreases |t|
  {
    if |t| == 0 then ""
    else
      assert t == [t[0]] + t[1..];
      assert multiset(t) == multiset([t[0]]) + multiset(t[1..]);
      if t[0] == '_' then DropUnderscores(t[1..])
      else [t[0]] + DropUnderscores(t[1..])
  }

  /** Taking the underscores out works piece by piece, so the digits keep
      their order. */
  lemma {:induction false} DropUnderscoresAppend(a: string, b: string)
    requires forall i :: 0 <= i < |a| ==> IsDigit(a[i]) || a[i] == '_'
    requires forall i :: 0 <= i < |b| ==> IsDigit(b[i]) || b[i] == '_'
    ensures DropUnderscores(a + b) == DropUnderscores(a) + DropUnderscores(b)
    decreases |a|
  {
    if |a| == 0 {
      assert a + b == b;
    } else {
      var ab := a + b;
      var rest := a[1..] + b;
      assert ab[0] == a[0] && ab[1..] == rest;
      forall i | 0 <= i < |ab| ensures IsDigit(ab[i]) || ab[i] == '_' {
        if i < |a| { assert ab[i] == a[i]; } else { assert ab[i] == b[i - |a|]; }
      }
      DropUnderscoresAppend(a[1..], b);
      var head: string := if a[0] == '_' then "" else [a[0]];
      assert DropUnderscores(ab) == head + DropUnderscores(rest);
    }
  }

  /** The text `int()` accepts once the surrounding white space is gone: an
      optional sign, then digit groups. Anything else (`12x`, `1__0`, `_1`,
      `5_`, `--1`, the empty string) raises ValueError. */
  predicate IntLiteral(t: string) {
    |t| > 0 && DigitGroups(if t[0] == '-' || t[0] == '+' then t[1..] else t)
  }

  /** `int(s)` in base 10 for ASCII digits; `None` stands for the ValueError.
      Exactly the padded literals parse; text without a digit never does. */
  function ParseInt(s: string): (r: Option<int>)
    ensures r.Some? <==> IntLiteral(Strip(s))
    ensures r.Some? ==> exists i :: 0 <= i < |s| && IsDigit(s[i])
  {
    var r := ParseSigned(Strip(s));
    if r.Some? then DigitSurvivesStrip(s); r else r
  }

  /** A digit left after stripping was a digit of the original text. */
  lemma DigitSurvivesStrip(s: string)
    requires exists i :: 0 <= i < |Strip(s)| && IsDigit(Strip(s)[i])
    ensures exists i :: 0 <= i < |s| && IsDigit(s[i])
  {
    var left := StripLeft(s);
    var t := StripRight(left);
    var j :| 0 <= j < |t| && IsDigit(t[j]);
    assert s[|s| - |left| + j] == t[j];
  }

  /** `int()` after the surrounding white space is gone: an optional sign and
      a digit group. */
  function ParseSigned(t: string): (r: Option<int>)
    ensures r.Some? <==> IntLiteral(t)
    ensures r.Some? ==> exists i :: 0 <= i < |t| && IsDigit(t[i])
  {
    if |t| == 0 then None
    else
      var body := if t[0] == '-' || t[0] == '+' then t[1..] else t;
      if !DigitGroups(body) then None
      else
        var v: int := DigitsValue(DropUnderscores(body));
        assert IsDigit(t[|t| - 1]);
        Some(if t[0] == '-' then -v else v)
  }

  lemma {:induction false} DropUnderscoresOfDigits(ds: string)
    requires forall i :: 0 <= i < |ds| ==> IsDigit(ds[i])
    ensures DropUnderscores(ds) == ds
    decreases |ds|
  {
    if |ds| > 0 {
      DropUnderscoresOfDigits(ds[1..]);
      assert [ds[0]] + ds[1..] == ds;
    }
  }

  lemma {:induction false} StripOfDigits(t: string)
    requires |t| >= 1 && !IsSpace(t[0]) && !IsSpace(t[|t| - 1])
    ensures Strip(t) == t
  {
    assert StripLeft(t) == t;
    assert StripRight(t) == t;
  }

  /** `int(str(n)) == n`: the id a button carries is the id it was made from. */
  lemma ParseIntRoundTrip(n: int)
    ensures ParseInt(IntToString(n)) == Some(n)
  {
    if n < 0 {
      NegativeRoundTrip(n);
    } else {
      NonNegativeRoundTrip(n);
    }
  }

  lemma NonNegativeRoundTrip(n: nat)
    ensures ParseInt(IntToString(n)) == Some(n)
  {
    var ds := NatToString(n);
    assert IntToString(n) == ds;
    StripOfDigits(ds);
    assert ParseInt(ds) == ParseSigned(ds);
    PlainDigits(ds);
    NatRoundTrip(n);
  }

  lemma NegativeRoundTrip(n: int)
    requires n < 0
    ensures ParseInt(IntToString(n)) == Some(n)
  {
    var k: nat := -n;
    var ds := NatToString(k);
    var s := IntToString(n);
    assert s == "-" + ds;
    assert s[1..] == ds;
    NatRoundTrip(k);
    SignedRoundTrip(s, k);
  }

  /** `int(s)` for a minus sign followed by a run of digits. */
  lemma SignedRoundTrip(s: string, k: nat)
    requires |s| >= 2 && s[0] == '-' && forall i :: 1 <= i < |s| ==> IsDigit(s[i])
    requires DigitsValue(s[1..]) == k
    ensures ParseInt(s) == Some(-(k as int))
  {
    StripOfDigits(s);
    StrippedParse(s);
    SignedDigits(s);
  }

  lemma StrippedParse(s: string)
    requires Strip(s) == s
    ensures ParseInt(s) == ParseSigned(s)
  {
  }

  lemma {:induction false} PlainDigits(ds: string)
    requires |ds| >= 1 && forall i :: 0 <= i < |ds| ==> IsDigit(ds[i])
    ensures ParseSigned(ds) == Some(DigitsValue(ds) as int)
  {
    DropUnderscoresOfDigits(ds);
  }

  lemma {:induction false} SignedDigits(s: string)
    requires |s| >= 2 && s[0] == '-' && forall i :: 1 <= i < |s| ==> IsDigit(s[i])
    ensures ParseSigned(s) == Some(-(DigitsValue(s[1..]) as int))
  {
    DropUnderscoresOfDigits(s[1..]);
  }

  /** `int()` accepts a leading plus sign: `+` followed by digits reads as
      the digits' value. */
  lemma {:induction false} PlusDigits(s: string)
    requires |s| >= 2 && s[0] == '+' && forall i :: 1 <= i < |s| ==> IsDigit(s[i])
    ensures ParseInt(s) == Some(DigitsValue(s[1..]) as int)
  {
    StripOfDigits(s);
    DropUnderscoresOfDigits(s[1..]);
  }

  /** `int()` ignores white space around the number: padding `t` on either
      side with white space does not change what it parses to. */
  lemma {:induction false} PaddedParse(a: string, t: string, b: string)
    requires forall i :: 0 <= i < |a| ==> IsSpace(a[i])
    requires forall i :: 0 <= i < |b| ==> IsSpace(b[i])
    requires |t| >= 1 && !IsSpace(t[0]) && !IsSpace(t[|t| - 1])
    ensures ParseInt(a + t + b) == ParseInt(t)
  {
    StripPadded(a, t, b);
    StripOfDigits(t);
  }

  lemma {:induction false} StripPadded(a: string, t: string, b: string)
    requires forall i :: 0 <= i < |a| ==> IsSpace(a[i])
    requires forall i :: 0 <= i < |b| ==> IsSpace(b[i])
    requires |t| >= 1 && !IsSpace(t[0]) && !IsSpace(t[|t| - 1])
    ensures Strip(a + t + b) == t
  {
    var s := a + t + b;
    var left := StripLeft(s);
    var cut := |s| - |left|;
    assert s[|a|] == t[0];
    assert cut == |a|;
    assert left == t + b;
    var right := StripRight(left);
    assert left[|t| - 1] == t[|t| - 1];
    assert |right| == |t|;
    assert right == left[..|t|] == t;
  }

  /** `int()` accepts an underscore between two digit runs and reads the
      number as if it were not there (`int("1_0") == 10`). */
  lemma {:induction false} GroupedDigits(x: string, y: string)
    requires |x| >= 1 && forall i :: 0 <= i < |x| ==> IsDigit(x[i])
    requires |y| >= 1 && forall i :: 0 <= i < |y| ==> IsDigit(y[i])
    ensures ParseSigned(x + ['_'] + y) == Some(DigitsValue(x + y) as int)
  {
    var t := x + ['_'] + y;
    assert t[0] == x[0] && t[|t| - 1] == y[|y| - 1];
    forall i | 0 <= i < |t| ensures IsDigit(t[i]) || t[i] == '_' {
      if i < |x| { assert t[i] == x[i]; } else if i > |x| { assert t[i] == y[i - |x| - 1]; }
    }
    forall i, j | 0 <= i < |t| && 0 <= j < |t| && j == i + 1 ensures t[i] != '_' || t[j] != '_' {
      if i < |x| { assert t[i] == x[i]; } else { assert t[j] == y[j - |x| - 1]; }
    }
    assert DigitGroups(t);
    assert !IsDigit('_');
    assert t[0] != '-' && t[0] != '+';
    DropUnderscoresAppend(x + ['_'], y);
    DropUnderscoresAppend(x, ['_']);
    DropUnderscoresOfDigits(x);
    DropUnderscoresOfDigits(y);
    assert DropUnderscores(['_']) == "" by {
      assert ['_'][1..] == [];
    }
    assert DropUnderscores(t) == x + y;
  }

  /** Text whose last character is not a digit never parses: a trailing
      letter, underscore or sign makes `int()` raise. */
  lemma TrailingNonDigit(t: string)
    requires |t| > 0 && !IsDigit(t[|t| - 1])
    ensures ParseSigned(t) == None
  {
  }
}

=== FILE: router.dfy ===
/** The support-session router of bot.py as a state machine: one immutable
    state, a closed set of incoming events, and a pure `Step` that returns the
    next state together with the calls made on the messaging platform.

    The platform's answers come from an `Oracle` fixed for the event. A send
    that raises aborts the handler unless the source catches it; whatever the
    handler changed before the exception stays changed. */
module Router {
  import opened PyText
  import opened Callbacks
  import opened Store
  import opened Outbound

  /** An entry of `active_chats`; `in_support` is always true and user names
      are left out. */
  datatype Entry = Entry(waiting: bool, msgIds: seq<int>, sessionId: int, count: nat)

  /** What `active_chats.get(user_id, {})` yields for a user without an entry:
      no session id, no forwarded messages, a count of 0. */
  function Lookup(chats: map<int, Entry>, u: int): Entry {
    if u in chats then chats[u] else Entry(false, [], 0, 0)
  }

  /** The process state: the operator id (ADMIN_ID), the two tables, the
      in-memory `active_chats`, `admin_replying_to[ADMIN_ID]` and the
      operator's `broadcast_type`. */
  datatype State = State(
    admin: int,
    users: Users,
    sessions: Sessions,
    chats: map<int, Entry>,
    replyTo: Option<int>,
    broadcast: Option<Scope>)

  /** How the platform answers during one event: sends to a chat in
      `sendFails` raise, deletes of a message in `deleteFails` raise, a
      message the bot sends to the operator gets id `forwardId`, and with
      `answerFails` the acknowledgement of a pressed button raises. */
  datatype Oracle = Oracle(sendFails: set<int>, deleteFails: set<int>, forwardId: int, answerFails: bool)
  {
    predicate Delivers(chat: int) {
      chat !in sendFails
    }
  }

  datatype Event =
    | Command(from: int, name: string)               // "/name" from a chat
    | Text(from: int)                                 // any other text message
    | Press(from: int, data: string, message: int)    // an inline button; `message` carries it
    | Shutdown                                        // the process exits

  datatype Next = Next(st: State, acts: seq<Action>)

  // ---------------------------------------------------------------------------
  // Relations between a state and the next
  // ---------------------------------------------------------------------------

  /** Every support entry other than `u`'s is kept as it was. */
  ghost predicate OthersKept(before: map<int, Entry>, after: map<int, Entry>, u: int) {
    forall v :: v != u ==> (v in after <==> v in before) && (v in before ==> after[v] == before[v])
  }

  /** The operator id and both operator modes are unchanged. */
  predicate SameModes(s: State, t: State) {
    t.admin == s.admin && t.replyTo == s.replyTo && t.broadcast == s.broadcast
  }

  /** The session table after `u`'s entry `e` is ended by `closer`: its row is
      closed with the entry's counter when the entry has a session id, and
      nothing changes otherwise. */
  predicate EndedRow(before: Sessions, after: Sessions, e: Entry, closer: Closer) {
    if e.sessionId != 0 then Closes(before, after, e.sessionId, closer, e.count) else after == before
  }

  /** `end_support_session(session_id, closer, message_count)` guarded by
      `if session_id:`. */
  function CloseRecorded(rows: Sessions, e: Entry, closer: Closer): (r: Sessions)
    ensures EndedRow(rows, r, e, closer)
  {
    if e.sessionId != 0 then CloseSession(rows, e.sessionId, closer, e.count) else rows
  }

  /** Leaving support, as /start and end_support do it: when `u` has an entry,
      its session is closed by `closer` and the entry is dropped. */
  function Leave(s: State, u: int, closer: Closer): (t: State)
    ensures u !in t.chats && OthersKept(s.chats, t.chats, u)
    ensures EndedRow(s.sessions, t.sessions, Lookup(s.chats, u), closer)
    ensures t.users == s.users && SameModes(s, t)
  {
    if u in s.chats then
      s.(sessions := CloseRecorded(s.sessions, s.chats[u], closer), chats := s.chats - {u})
    else s
  }

  /** The broadcast targets of a scope: active user rows in rowid (ascending)
      order, or the users with a support entry. */
  function Targets(s: State, scope: Scope): (r: seq<int>)
    ensures Distinct(r)
    ensures scope == All ==> forall t :: t in r <==> t in s.users && s.users[t].active
    ensures scope == ActiveChats ==> forall t :: t in r <==> t in s.chats
  {
    match scope
    case All => Ascending(ActiveUserIds(s.users))
    case ActiveChats => Ascending(s.chats.Keys)
  }

  // ---------------------------------------------------------------------------
  // Commands
  // ---------------------------------------------------------------------------

  /** /start and /help: the caller's row is touched, any support entry of the
      caller is ended as if by the user, and the caller gets the operator panel
      or the user welcome. */
  function OnStart(s: State, u: int, o: Oracle): (r: Next)
    ensures Touched(s.users, r.st.users, u)
    ensures u !in r.st.chats && OthersKept(s.chats, r.st.chats, u)
    ensures EndedRow(s.sessions, r.st.sessions, Lookup(s.chats, u), ByUser)
    ensures SameModes(s, r.st)
    ensures r.acts == [Send(u, if u == s.admin then AdminPanel else Welcome, o.Delivers(u))]
  {
    Next(Leave(s.(users := Touch(s.users, u)), u, ByUser),
         [Send(u, if u == s.admin then AdminPanel else Welcome, o.Delivers(u))])
  }

  /** /admin and /stats: a read-only reply, refused to anyone but the operator. */
  function OnReport(s: State, u: int, name: string, o: Oracle): (r: Next)
    ensures r.st == s
    ensures |r.acts| == 1 && r.acts[0].Send? && r.acts[0].to == u
    ensures r.acts[0].notice == Refused <==> u != s.admin
  {
    var notice := if u != s.admin then Refused else if name == "admin" then AdminPanel else PanelView;
    Next(s, [Send(u, notice, o.Delivers(u))])
  }

  // ---------------------------------------------------------------------------
  // Text messages
  // ---------------------------------------------------------------------------

  /** handle_user_support_message and the fall-through of
      handle_user_messages, for a sender other than the operator. In support,
      the count goes up, the row is touched and the text is forwarded to the
      operator, framed as a new request the first time only; the forwarded
      message's id is recorded once the send went through. Outside support the
      row is touched and the menu is shown. */
  function OnUserText(s: State, u: int, o: Oracle): (r: Next)
    ensures Touched(s.users, r.st.users, u)
    ensures r.st.sessions == s.sessions && SameModes(s, r.st)
    ensures OthersKept(s.chats, r.st.chats, u)
    ensures u !in s.chats ==> r.st.chats == s.chats && r.acts == [Send(u, Menu, o.Delivers(u))]
    ensures u in s.chats ==>
      var e := s.chats[u];
      && u in r.st.chats
      && r.st.chats[u].count == e.count + 1
      && !r.st.chats[u].waiting
      && r.st.chats[u].sessionId == e.sessionId
      && r.st.chats[u].msgIds == (if o.Delivers(s.admin) then e.msgIds + [o.forwardId] else e.msgIds)
      && |r.acts| == (if o.Delivers(s.admin) then 2 else 1)
      && r.acts[0] == Send(s.admin, if e.waiting then NewRequest(u) else Forwarded(u), o.Delivers(s.admin))
      && (o.Delivers(s.admin) ==> r.acts[1] == Send(u, if e.waiting then FirstAck else Ack, o.Delivers(u)))
  {
    var users := Touch(s.users, u);
    if u !in s.chats then
      Next(s.(users := users), [Send(u, Menu, o.Delivers(u))])
    else
      var e := s.chats[u];
      var counted := e.(count := e.count + 1, waiting := false);
      var first := Send(s.admin, if e.waiting then NewRequest(u) else Forwarded(u), o.Delivers(s.admin));
      if !o.Delivers(s.admin) then
        Next(s.(users := users, chats := s.chats[u := counted]), [first])
      else
        var recorded := counted.(msgIds := e.msgIds + [o.forwardId]);
        Next(s.(users := users, chats := s.chats[u := recorded]),
             [first, Send(u, if e.waiting then FirstAck else Ack, o.Delivers(u))])
  }

  /** admin_reply_handler: a pending broadcast takes the text first; otherwise
      the text is relayed to the reply target, and with no target (or target
      0) the operator is shown the panel. Reply mode ends only when the relay
      went through. */
  function OnOperatorText(s: State, o: Oracle): (r: Next)
    ensures s.broadcast.Some? ==> r == OnBroadcast(s, o)
    ensures s.broadcast.None? && (s.replyTo.None? || s.replyTo == Some(0)) ==>
      r.st == s && r.acts == [Send(s.admin, AdminPanel, o.Delivers(s.admin))]
    ensures s.broadcast.None? && s.replyTo.Some? && s.replyTo.value != 0 ==>
      var t := s.replyTo.value;
      && |r.acts| >= 2
      && r.acts[0] == Send(t, OperatorReply, o.Delivers(t))
      && r.st == (if o.Delivers(t) then s.(replyTo := None) else s)
      && (!o.Delivers(t) ==> r.acts[1] == Send(s.admin, ReplyFailed(t), o.Delivers(s.admin)))
      && (o.Delivers(t) ==> r.acts[1] == Send(s.admin, ReplySent(t), o.Delivers(s.admin)))
  {
    if s.broadcast.Some? then OnBroadcast(s, o)
    else if s.replyTo.None? || s.replyTo.value == 0 then
      Next(s, [Send(s.admin, AdminPanel, o.Delivers(s.admin))])
    else
      var t := s.replyTo.value;
      var relay := Send(t, OperatorReply, o.Delivers(t));
      if !o.Delivers(t) then
        Next(s, [relay, Send(s.admin, ReplyFailed(t), o.Delivers(s.admin))])
      else if o.Delivers(s.admin) then
        Next(s.(replyTo := None), [relay, Send(s.admin, ReplySent(t), true)])
      else
        // the confirmation raises inside the try, so the except branch
        // reports a failure to the same chat; the oracle gives a chat one
        // outcome per event, so the model takes that report to raise too
        Next(s.(replyTo := None), [relay, Send(s.admin, ReplySent(t), false), Send(s.admin, ReplyFailed(t), false)])
  }

  /** handle_broadcast: with no target the operator is told so; otherwise a
      status message goes first, then one attempt per target except the
      operator, then the tally. The mode is cleared unless the message to the
      operator raised. */
  function OnBroadcast(s: State, o: Oracle): (r: Next)
    requires s.broadcast.Some?
    ensures r.st.users == s.users && r.st.sessions == s.sessions && r.st.chats == s.chats
    ensures r.st.admin == s.admin && r.st.replyTo == s.replyTo
    ensures r.st.broadcast.None? <==> o.Delivers(s.admin)
    ensures r.st.broadcast.Some? ==> r.st == s
    ensures var n := |Targets(s, s.broadcast.value)|;
      && |r.acts| >= 1
      && r.acts[0] == Send(s.admin, if n == 0 then NoTargets else Broadcasting(n), o.Delivers(s.admin))
      && (n == 0 || !o.Delivers(s.admin) ==> |r.acts| == 1)
    ensures var targets := Targets(s, s.broadcast.value);
      var f := Fanout(targets, s.admin, o.sendFails);
      |targets| > 0 && o.Delivers(s.admin) ==>
        && |r.acts| == |f.acts| + 2
        && r.acts[1..|r.acts| - 1] == f.acts
        && r.acts[|r.acts| - 1] == Edit(s.admin, BroadcastDone(f.ok, f.failed, |targets|))
  {
    var targets := Targets(s, s.broadcast.value);
    var reachable := o.Delivers(s.admin);
    if |targets| == 0 then
      Next(if reachable then s.(broadcast := None) else s, [Send(s.admin, NoTargets, reachable)])
    else if !reachable then
      Next(s, [Send(s.admin, Broadcasting(|targets|), false)])
    else
      var f := Fanout(targets, s.admin, o.sendFails);
      var acts := [Send(s.admin, Broadcasting(|targets|), true)] + f.acts
                  + [Edit(s.admin, BroadcastDone(f.ok, f.failed, |targets|))];
      assert acts[1..|acts| - 1] == f.acts;
      Next(s.(broadcast := None), acts)
  }

  /** handle_user_messages: the operator's texts go to admin_reply_handler,
      everybody else's to the user side. */
  function OnText(s: State, u: int, o: Oracle): (r: Next)
    ensures r.st.admin == s.admin && r.st.sessions == s.sessions
    ensures u == s.admin ==> r.st.users == s.users && r.st.chats == s.chats
    ensures u != s.admin ==> SameModes(s, r.st) && Touched(s.users, r.st.users, u) && OthersKept(s.chats, r.st.chats, u)
  {
    if u == s.admin then OnOperatorText(s, o) else OnUserText(s, u, o)
  }

  // ---------------------------------------------------------------------------
  // Button presses
  // ---------------------------------------------------------------------------

  /** help_support (start_support_chat): a new session row and a fresh entry
      waiting for its first message. An existing entry is replaced without
      closing its session. */
  function OnHelpSupport(s: State, u: int): (r: Next)
    ensures |r.st.sessions| == |s.sessions| + 1 && r.st.sessions[..|s.sessions|] == s.sessions
    ensures var row := r.st.sessions[|s.sessions|];
      && row.user == u && row.status == Active && row.endedBy == NotEnded && row.count == 0
      && row.id >= 1
      && (forall i :: 0 <= i < |s.sessions| ==> s.sessions[i].id != row.id)
      && u in r.st.chats && r.st.chats[u] == Entry(true, [], row.id, 0)
    ensures OthersKept(s.chats, r.st.chats, u)
    ensures r.st.users == s.users && SameModes(s, r.st)
    ensures r.acts == [Edit(u, SupportStarted)]
  {
    var (rows, sid) := OpenSession(s.sessions, u);
    assert rows[..|s.sessions|] == s.sessions;
    Next(s.(sessions := rows, chats := s.chats[u := Entry(true, [], sid, 0)]), [Edit(u, SupportStarted)])
  }

  /** end_support: the entry, if any, is ended as if by the user; the user's
      message is edited and the operator is told, a failure of that notice
      being swallowed. */
  function OnEndSupport(s: State, u: int, o: Oracle): (r: Next)
    ensures u !in r.st.chats && OthersKept(s.chats, r.st.chats, u)
    ensures EndedRow(s.sessions, r.st.sessions, Lookup(s.chats, u), ByUser)
    ensures r.st.users == s.users && SameModes(s, r.st)
    ensures r.acts == [Edit(u, SupportEnded), Send(s.admin, UserLeft(u), o.Delivers(s.admin))]
  {
    Next(Leave(s, u, ByUser), [Edit(u, SupportEnded), Send(s.admin, UserLeft(u), o.Delivers(s.admin))])
  }

  /** reply_<id>: the next operator text goes to `t`; support entries are not
      consulted. */
  function OnReplyPress(s: State, t: int): (r: Next)
    ensures r.st.replyTo == Some(t)
    ensures r.st.users == s.users && r.st.sessions == s.sessions && r.st.chats == s.chats
    ensures r.st.admin == s.admin && r.st.broadcast == s.broadcast
    ensures r.acts == [Edit(s.admin, ReplyMode(t))]
  {
    Next(s.(replyTo := Some(t)), [Edit(s.admin, ReplyMode(t))])
  }

  /** close_clean_<id>: the session is closed by the operator with the
      entry's count, every recorded forward is deleted from the operator chat
      (failures counted, never fatal), the entry is dropped, the summary shows
      how many were deleted and the user is told, a failure being swallowed. */
  function OnCloseClean(s: State, t: int, o: Oracle): (r: Next)
    ensures var e := Lookup(s.chats, t);
      && EndedRow(s.sessions, r.st.sessions, e, ByAdmin)
      && |r.acts| == |e.msgIds| + 2
      && (forall i :: 0 <= i < |e.msgIds| ==> r.acts[i] == Delete(s.admin, e.msgIds[i], e.msgIds[i] !in o.deleteFails))
      && r.acts[|e.msgIds|] == Edit(s.admin, ChatClosed(t, e.count, Succeeded(r.acts[..|e.msgIds|])))
      && r.acts[|e.msgIds| + 1] == Send(t, Resolved, o.Delivers(t))
    ensures t !in r.st.chats && OthersKept(s.chats, r.st.chats, t)
    ensures r.st.users == s.users && SameModes(s, r.st)
  {
    var e := Lookup(s.chats, t);
    var d := DeleteEach(s.admin, e.msgIds, o.deleteFails);
    var acts := d.acts + [Edit(s.admin, ChatClosed(t, e.count, d.ok)), Send(t, Resolved, o.Delivers(t))];
    assert acts[..|e.msgIds|] == d.acts;
    Next(s.(sessions := CloseRecorded(s.sessions, e, ByAdmin), chats := s.chats - {t}), acts)
  }

  /** block_<id>: the user row is marked inactive and the entry dropped; the
      session row is left as it is. */
  function OnBlock(s: State, t: int, o: Oracle): (r: Next)
    ensures r.st.users.Keys == s.users.Keys
    ensures t in s.users ==> r.st.users[t] == s.users[t].(active := false)
    ensures forall v :: v in s.users && v != t ==> r.st.users[v] == s.users[v]
    ensures t !in r.st.chats && OthersKept(s.chats, r.st.chats, t)
    ensures r.st.sessions == s.sessions && SameModes(s, r.st)
    ensures r.acts == [Edit(s.admin, UserBlocked(t)), Send(t, BlockedNotice, o.Delivers(t))]
  {
    Next(s.(users := SetActive(s.users, t, false), chats := s.chats - {t}),
         [Edit(s.admin, UserBlocked(t)), Send(t, BlockedNotice, o.Delivers(t))])
  }

  /** unblock_<id>: the user row is marked active again, nothing else. */
  function OnUnblock(s: State, t: int): (r: Next)
    ensures r.st.users.Keys == s.users.Keys
    ensures t in s.users ==> r.st.users[t] == s.users[t].(active := true)
    ensures forall v :: v in s.users && v != t ==> r.st.users[v] == s.users[v]
    ensures r.st.chats == s.chats && r.st.sessions == s.sessions && SameModes(s, r.st)
    ensures r.acts == [Edit(s.admin, UserUnblocked(t))]
  {
    Next(s.(users := SetActive(s.users, t, true)), [Edit(s.admin, UserUnblocked(t))])
  }

  /** broadcast_all / broadcast_active in admin_broadcast_callback: the next
      operator text becomes a broadcast to that scope. */
  function OnPickScope(s: State, scope: Scope): (r: Next)
    ensures r.st.broadcast == Some(scope)
    ensures r.st.users == s.users && r.st.sessions == s.sessions && r.st.chats == s.chats
    ensures r.st.admin == s.admin && r.st.replyTo == s.replyTo
    ensures r.acts == [Edit(s.admin, BroadcastPrompt(|Targets(s, scope)|))]
  {
    Next(s.(broadcast := Some(scope)), [Edit(s.admin, BroadcastPrompt(|Targets(s, scope)|))])
  }

  /** clean_chat: the messages 1 to 49 below the pressed one are deleted
      until the first failure; the state does not change. */
  function OnCleanChat(s: State, current: int, o: Oracle): (r: Next)
    ensures r.st == s
    ensures 1 <= |r.acts| <= SweepEnd
    ensures var n := |r.acts| - 1;
      var deleted := Succeeded(r.acts[..n]);
      && r.acts[n] == Edit(s.admin, ChatCleaned(deleted))
      && (forall k :: 0 <= k < n ==> r.acts[k] == Delete(s.admin, current - (k + 1), current - (k + 1) !in o.deleteFails))
      && (forall k :: 0 <= k < n ==> (r.acts[k].ok <==> k < deleted))
      && (n == deleted ==> n == SweepEnd - 1)
      && (n == deleted || n == deleted + 1)
  {
    var sw := Sweep(s.admin, current, 1, o.deleteFails);
    var acts := sw.acts + [Edit(s.admin, ChatCleaned(sw.ok))];
    assert acts[..|acts| - 1] == sw.acts;
    Next(s, acts)
  }

  /** The handlers that acknowledge the press outside any try, before
      their first effect: admin_broadcast_callback, block_user_handler and
      user_callback_handler (whose help_support branch acknowledges a second
      time in start_support_chat, again before opening the session). */
  predicate AnswersUnguarded(cb: Callback) {
    cb.PickScope? || cb.Block? || cb.Unblock? || cb.HelpSupport? || cb.EndSupport?
  }

  /** A decoded press. Presses meant for an operator handler are ignored when
      they come from anyone else; a press no branch takes, or whose id does
      not parse, does nothing; a handler whose unguarded acknowledgement
      raises stops before doing anything. */
  function OnPress(s: State, u: int, cb: Callback, message: int, o: Oracle): (r: Next)
    ensures cb.AdminOnly() && u != s.admin ==> r == Next(s, [])
    ensures cb.BadId? || cb.NoBranch? || cb.Unrouted? ==> r == Next(s, [])
    ensures o.answerFails && AnswersUnguarded(cb) ==> r == Next(s, [])
    ensures r.st.admin == s.admin
    ensures u != s.admin ==> SameModes(s, r.st)
  {
    if cb.AdminOnly() && u != s.admin then Next(s, [])
    else if o.answerFails && AnswersUnguarded(cb) then Next(s, [])
    else
      match cb
      case Report => Next(s, [Edit(u, PanelView)])
      case CleanChat => OnCleanChat(s, message, o)
      case Reply(t) => OnReplyPress(s, t)
      case CloseClean(t) => OnCloseClean(s, t, o)
      case PickScope(scope) => OnPickScope(s, scope)
      case Block(t) => OnBlock(s, t, o)
      case Unblock(t) => OnUnblock(s, t)
      case HelpSupport => OnHelpSupport(s, u)
      case EndSupport => OnEndSupport(s, u, o)
      case BadId => Next(s, [])
      case NoBranch => Next(s, [])
      case Unrouted => Next(s, [])
  }

  /** cleanup_database at exit: every open session is closed by the system;
      the in-memory state is lost with the process. */
  function OnShutdown(s: State): (r: Next)
    ensures |r.st.sessions| == |s.sessions|
    ensures forall i :: 0 <= i < |s.sessions| ==> r.st.sessions[i].status == Closed
    ensures forall i :: 0 <= i < |s.sessions| ==>
      r.st.sessions[i].endedBy == (if s.sessions[i].status == Active then EndedBy(BySystem) else s.sessions[i].endedBy)
    ensures r.st.users == s.users && r.st.chats == s.chats && SameModes(s, r.st)
    ensures r.acts == []
  {
    Next(s.(sessions := CloseAllActive(s.sessions)), [])
  }

  // ---------------------------------------------------------------------------
  // The router
  // ---------------------------------------------------------------------------

  /** One update, routed the way the handler table registers them: the four
      commands first, then callback patterns in order, then any text
      (including an unregistered command). */
  function Step(s: State, e: Event, o: Oracle): (r: Next)
    ensures r.st.admin == s.admin
    ensures !e.Shutdown? && e.from != s.admin ==> SameModes(s, r.st)
  {
    match e
    case Command(u, name) =>
      if name == "start" || name == "help" then OnStart(s, u, o)
      else if name == "admin" || name == "stats" then OnReport(s, u, name, o)
      else OnText(s, u, o)
    case Text(u) => OnText(s, u, o)
    case Press(u, data, message) => OnPress(s, u, Decode(data), message, o)
    case Shutdown => OnShutdown(s)
  }
}

=== FILE: store.dfy ===
/** The two SQLite tables of bot.py, `users` and `support_sessions`, and the
    statements the router runs against them. Names, timestamps and the
    database connection are abstracted away; a row keeps what the router
    reads back or counts. */
module Store {

  /** A row of `users`: `total_messages` and `is_active` (1 = true). */
  datatype UserRow = UserRow(total: nat, active: bool)

  datatype Status = Active | Closed

  /** The `ended_by` column. */
  datatype Closer = ByAdmin | ByUser | BySystem

  /** A row of `support_sessions`; `endedBy` is NULL until the first close. */
  datatype SessionRow = SessionRow(id: int, user: int, status: Status, endedBy: EndReason, count: nat)

  /** `ended_by` is nullable. */
  datatype EndReason = NotEnded | EndedBy(closer: Closer)

  type Users = map<int, UserRow>
  type Sessions = seq<SessionRow>

  // ---------------------------------------------------------------------------
  // users
  // ---------------------------------------------------------------------------

  /** update_user_stats: `INSERT OR REPLACE` whose `total_messages` is the old
      value plus one (one for a new user) and whose `is_active` is forced to 1. */
  function Touch(users: Users, u: int): (r: Users)
    ensures Touched(users, r, u)
  {
    var old_total := if u in users then users[u].total else 0;
    users[u := UserRow(old_total + 1, true)]
  }

  /** `after` is `before` once `u` has been seen: `u` has a row, it is active,
      its counter went up by one (to one for a new user), and nobody else's
      row changed. */
  predicate Touched(before: Users, after: Users, u: int) {
    && u in after && after[u].active
    && after[u].total == (if u in before then before[u].total + 1 else 1)
    && after.Keys == before.Keys + {u}
    && forall v :: v in before && v != u ==> after[v] == before[v]
  }

  /** `UPDATE users SET is_active = ? WHERE user_id = ?`: no row, no change. */
  function SetActive(users: Users, u: int, active: bool): (r: Users)
    ensures r.Keys == users.Keys
    ensures u in users ==> r[u] == users[u].(active := active)
    ensures forall v :: v in users && v != u ==> r[v] == users[v]
  {
    if u in users then users[u := users[u].(active := active)] else users
  }

  /** get_all_user_ids: `SELECT user_id FROM users WHERE is_active = 1`. */
  function ActiveUserIds(users: Users): (r: set<int>)
    ensures forall u :: u in r <==> u in users && users[u].active
  {
    set u | u in users && users[u].active
  }

  /** A listing of an id set in ascending order. The SELECTs of the router
      have no ORDER BY, so SQLite promises no order; the model fixes this one
      (the order of a scan over the `user_id` rowid). */
  function Ascending(ids: set<int>): (r: seq<int>)
    ensures |r| == |ids|
    ensures forall x :: x in r <==> x in ids
    ensures forall i, j :: 0 <= i < j < |r| ==> r[i] < r[j]
    decreases |ids|
  {
    if ids == {} then []
    else
      HasLeast(ids);
      var m :| IsLeast(m, ids);
      var tail := Ascending(ids - {m});
      LeastThenRest(m, ids, tail);
      [m] + tail
  }

  /** Putting the least element in front of an ascending listing of the
      others lists the whole set in ascending order. */
  lemma LeastThenRest(m: int, ids: set<int>, tail: seq<int>)
    requires IsLeast(m, ids)
    requires |tail| == |ids - {m}|
    requires forall x :: x in tail <==> x in ids - {m}
    requires forall i, j :: 0 <= i < j < |tail| ==> tail[i] < tail[j]
    ensures |[m] + tail| == |ids|
    ensures forall x :: x in [m] + tail <==> x in ids
    ensures forall i, j :: 0 <= i < j < |[m] + tail| ==> ([m] + tail)[i] < ([m] + tail)[j]
  {
    var r := [m] + tail;
    assert |ids - {m}| == |ids| - 1;
    forall i, j | 0 <= i < j < |r| ensures r[i] < r[j] {
      assert r[j] == tail[j - 1];
      assert tail[j - 1] in ids - {m};
      if i > 0 {
        assert r[i] == tail[i - 1];
      }
    }
  }

  predicate IsLeast(m: int, ids: set<int>) {
    m in ids && forall x :: x in ids ==> m <= x
  }

  lemma {:induction false} HasLeast(ids: set<int>)
    requires ids != {}
    ensures exists m :: IsLeast(m, ids)
    decreases |ids|
  {
    var x := Member(ids);
    if ids == {x} {
      assert IsLeast(x, ids);
    } else {
      var rest := ids - {x};
      assert rest != {} by { assert |rest| == |ids| - 1; }
      HasLeast(rest);
      var m :| IsLeast(m, rest);
      var least := if x < m then x else m;
      forall y | y in ids ensures least <= y {
        if y != x { assert y in rest; }
      }
      assert IsLeast(least, ids);
    }
  }

  lemma Member(ids: set<int>) returns (x: int)
    requires ids != {}
    ensures x in ids
  {
    assert exists y :: y in ids by {
      if forall y :: y !in ids {
        assert false;
      }
    }
    x :| x in ids;
  }

  // ---------------------------------------------------------------------------
  // support_sessions
  // ---------------------------------------------------------------------------

  /** Largest session id in the table, 0 when it is empty. */
  function MaxId(rows: Sessions): (m: int)
    ensures m >= 0
    ensures forall i :: 0 <= i < |rows| ==> rows[i].id <= m
    decreases |rows|
  {
    if |rows| == 0 then 0
    else
      var rest := MaxId(rows[..|rows| - 1]);
      var last := rows[|rows| - 1].id;
      if last > rest then last else rest
  }

  /** start_support_session: an `INSERT` whose AUTOINCREMENT id is one more
      than any id the table has held (rows are never deleted). */
  function OpenSession(rows: Sessions, u: int): (r: (Sessions, int))
    ensures r.1 >= 1
    ensures forall i :: 0 <= i < |rows| ==> rows[i].id != r.1
    ensures r.0 == rows + [SessionRow(r.1, u, Active, NotEnded, 0)]
  {
    var id := MaxId(rows) + 1;
    (rows + [SessionRow(id, u, Active, NotEnded, 0)], id)
  }

  /** end_support_session: `UPDATE ... SET ended_by, message_count, status =
      'closed' WHERE session_id = ?`. It does not look at the current status,
      so a closed row is overwritten too. */
  function CloseSession(rows: Sessions, sid: int, closer: Closer, count: nat): (r: Sessions)
    ensures Closes(rows, r, sid, closer, count)
    decreases |rows|
  {
    if |rows| == 0 then []
    else
      var row := rows[0];
      var row' := if row.id == sid then row.(status := Closed, endedBy := EndedBy(closer), count := count) else row;
      [row'] + CloseSession(rows[1..], sid, closer, count)
  }

  /** `after` is `before` with every row whose id is `sid` closed by `closer`
      with `count` messages, and every other row as it was. */
  predicate Closes(before: Sessions, after: Sessions, sid: int, closer: Closer, count: nat) {
    && |after| == |before|
    && forall i :: 0 <= i < |before| ==>
      after[i] == (if before[i].id == sid
                   then before[i].(status := Closed, endedBy := EndedBy(closer), count := count)
                   else before[i])
  }

  /** cleanup_database: `UPDATE ... SET ended_by = 'system', status = 'closed'
      WHERE status = 'active'`; `message_count` keeps what it had. */
  function CloseAllActive(rows: Sessions): (r: Sessions)
    ensures |r| == |rows|
    ensures forall i :: 0 <= i < |rows| && rows[i].status == Active ==>
      r[i] == rows[i].(status := Closed, endedBy := EndedBy(BySystem))
    ensures forall i :: 0 <= i < |rows| && rows[i].status == Closed ==> r[i] == rows[i]
    decreases |rows|
  {
    if |rows| == 0 then []
    else
      var row := rows[0];
      var row' := if row.status == Active then row.(status := Closed, endedBy := EndedBy(BySystem)) else row;
      [row'] + CloseAllActive(rows[1..])
  }

  /** The number of rows still `active` for user `u`. */
  function ActiveCount(rows: Sessions, u: int): nat
    decreases |rows|
  {
    if |rows| == 0 then 0
    else (if rows[0].user == u && rows[0].status == Active then 1 else 0) + ActiveCount(rows[1..], u)
  }

  /** Session ids are unique: AUTOINCREMENT never hands out an id twice. */
  predicate UniqueIds(rows: Sessions) {
    forall i, j :: 0 <= i < j < |rows| ==> rows[i].id != rows[j].id
  }

  // ---------------------------------------------------------------------------
  // Properties of the statements
  // ---------------------------------------------------------------------------

  /** Inserting keeps session ids unique. */
  lemma OpenKeepsIdsUnique(rows: Sessions, u: int)
    requires UniqueIds(rows)
    ensures UniqueIds(OpenSession(rows, u).0)
  {
  }

  lemma {:induction false} ActiveCountAppend(rows: Sessions, row: SessionRow, u: int)
    ensures ActiveCount(rows + [row], u) == ActiveCount(rows, u) + (if row.user == u && row.status == Active then 1 else 0)
    decreases |rows|
  {
    if |rows| == 0 {
      assert [row][1..] == [];
    } else {
      ActiveCountAppend(rows[1..], row, u);
      assert (rows + [row])[1..] == rows[1..] + [row];
    }
  }

  /** Opening a session adds exactly one `active` row for its user and never
      closes another one, whatever the user already had open. */
  lemma OpenAddsOneActive(rows: Sessions, u: int, v: int)
    ensures ActiveCount(OpenSession(rows, u).0, v) == ActiveCount(rows, v) + (if v == u then 1 else 0)
  {
    ActiveCountAppend(rows, SessionRow(MaxId(rows) + 1, u, Active, NotEnded, 0), v);
  }

  /** After the shutdown hook no row is `active`, for any user. */
  lemma {:induction false} NoneActiveAfterShutdown(rows: Sessions, u: int)
    ensures ActiveCount(CloseAllActive(rows), u) == 0
    decreases |rows|
  {
    if |rows| > 0 {
      NoneActiveAfterShutdown(rows[1..], u);
      var r := CloseAllActive(rows);
      assert r[1..] == CloseAllActive(rows[1..]);
    }
  }

  /** The shutdown hook is idempotent: a second run finds nothing to close. */
  lemma ShutdownIdempotent(rows: Sessions)
    ensures CloseAllActive(CloseAllActive(rows)) == CloseAllActive(rows)
  {
    var r := CloseAllActive(rows);
    var r2 := CloseAllActive(r);
    assert |r2| == |r|;
    forall i | 0 <= i < |r| ensures r2[i] == r[i] {
      assert r[i].status == Closed;
    }
  }
}
